=== FILE: README.md ===
# Stock ledger model

A Dafny model of a small inventory tool's core: the stock manager (the
products, suppliers, movements and alerts it stores, and every operation on
them); the record types; the product entry form's validation and submit; and
the barcode scanner panel.

The four stored collections form one immutable `StockManager.Store`. Each
operation is a pure function from one store to the next. Each call reads the
clock once, and that instant is the parameter `now` (milliseconds). Every
fresh id is a parameter too. The ids of rebuilt alerts come from an
`IdSource`: the k-th alert of a rebuild gets `ids(k)`.

The main properties proved:

- the ledger invariant (`LedgerProofs`): a product's stored quantity is what
  replaying its movements from zero gives. Recording movements, deleting
  products and rebuilding alerts keep it. `addProduct` as written breaks it.
- the alert rebuild (`StockAlerts`): it holds exactly one alert per product and
  kind that the product warrants, stated on milliseconds without rounding.
- the chart series (`MovementSeries`): it tiles the requested window of days
  with no gap and no overlap.
- the form (`ProductForm`): a product that passes validation is well formed.
- the scanner (`BarcodeScanner`): its history is always the five newest
  reported codes.

Modules:

| file | module | covers |
|---|---|---|
| wrappers.dfy | `Wrappers` | `Option` |
| seqs.dfy | `Seqs` | `filter`, `findIndex` and counting on sequences |
| text.dfy | `Text` | ECMAScript `String.prototype.trim` |
| stock_types.dfy | `StockTypes` | the records of `src/types/stock.ts` |
| stock_alerts.dfy | `StockAlerts` | the rules of `checkStockAlerts` |
| stock_manager.dfy | `StockManager` | the exported operations of `src/lib/stockManager.ts` |
| ledger_proofs.dfy | `LedgerProofs` | the replay invariant and the `addProduct` discrepancy |
| series.dfy | `MovementSeries` | `getMovementData` |
| product_form.dfy | `ProductForm` | `validateForm` and `handleSubmit` |
| barcode_scanner.dfy | `BarcodeScanner` | the scanner panel as an event machine |

Two behaviours of the code that its names do not suggest. The model follows
the code in both:

- Expiry. The code compares `Math.ceil((dlc - now) / day)` with 0 and 7. So an
  expiry earlier on the same day counts as 0 days, and it is "near", not
  "passed". An expiry is "passed" only once it lies a full day or more before
  `now`. `StockAlerts.ExpiryDaysClassify` states this exactly.
- Initial stock. `addProduct` stores a new product's quantity and then
  records an initial-stock entry. Recording that entry adds the quantity a
  second time (see Findings).

## Model

| member | source | states |
|---|---|---|
| StockTypes.DayOf | src/lib/stockManager.ts:182-185 | the day number of an instant is the UTC day whose millisecond range contains it |
| StockTypes.Stamp | src/lib/stockManager.ts:34-39 | a new product is its form data plus the given id and one instant as both creation and modification time |
| StockTypes.StampStrip | src/types/stock.ts:51 | stamping adds exactly the id and the two timestamps: stripping them gives the form data back, and a product whose timestamps agree is its stamped data |
| Seqs.Filter | src/lib/stockManager.ts:167 | `filter` keeps exactly the elements that pass, in their original order (a subsequence) and with their multiplicities |
| Seqs.FirstIndex | src/lib/stockManager.ts:66 | `findIndex` returns the first position whose element passes, or none when no element passes |
| Text.Trim | src/components/ProductForm.tsx:98 | `trim` returns the contiguous middle of the string with only whitespace cut at both ends, and the result neither starts nor ends with whitespace |
| Text.TrimEmptyIffBlank | src/components/ProductForm.tsx:98-104 | a string trims to the empty string exactly when every character is whitespace |
| Text.TrimIdempotent | src/components/ProductForm.tsx:139-141 | trimming a trimmed string changes nothing |
| StockAlerts.CeilDiv | src/lib/stockManager.ts:235 | `Math.ceil(a / b)` is the least integer r with a <= r * b |
| StockAlerts.ExpiryDaysClassify | src/lib/stockManager.ts:231-255 | the rounded-up day count is negative exactly when the expiry lies a full day or more before now, and between 0 and 7 exactly when it lies less than a day before now and at most seven days after |
| StockAlerts.NearAndPassedExclusive | src/lib/stockManager.ts:237-255 | no product warrants both an expiry-near and an expiry-passed alert |
| StockAlerts.LowStockAlerts | src/lib/stockManager.ts:219-228 | a product gets one low-stock alert exactly when its quantity is at or below its threshold |
| StockAlerts.ExpiryAlerts | src/lib/stockManager.ts:231-256 | a product gets at most one expiry alert, exactly when it warrants passed or near, and the alert's kind is one it warrants |
| StockAlerts.ProductAlerts | src/lib/stockManager.ts:217-257 | a product gets at most two alerts, both about it, unread, dated now, warranted, and of different kinds |
| StockAlerts.ProductAlertsCount | src/lib/stockManager.ts:217-257 | a product's own alerts hold exactly one alert per kind it warrants, and none about other ids |
| StockAlerts.DraftsCount | src/lib/stockManager.ts:215-257 | for every id and kind, the rebuilt list holds as many alerts as there are products with that id warranting that kind |
| StockAlerts.Number | src/lib/stockManager.ts:221 | the k-th alert of a rebuild gets the k-th fresh id and keeps everything else, so for every product id and kind the number of alerts about it is what it was before numbering |
| StockAlerts.CheckAlerts | src/lib/stockManager.ts:210-260 | the rebuilt list has at most two alerts per product, all unread, all dated now, with fresh ids, and for every product id and kind one alert per product with that id warranting that kind |
| StockAlerts.CheckAlertsCount | src/lib/stockManager.ts:210-260 | the rebuilt list holds one alert per product and kind it warrants, and nothing else |
| StockAlerts.AlertCountExact | src/lib/stockManager.ts:217-257 | with distinct product ids, each product gets exactly one alert of each kind it warrants and none of the others |
| StockAlerts.AtMostOneExpiryAlert | src/lib/stockManager.ts:237-255 | with distinct product ids, no product carries more than one expiry alert |
| StockManager.ProductIndex | src/lib/stockManager.ts:143 | the position of the first product with the id, or none exactly when no product has it |
| StockManager.CheckStockAlerts | src/lib/stockManager.ts:210-260 | the stored alerts become the rebuilt list: for every product id and kind, one alert per product with that id warranting that kind and nothing else, all unread and dated now; products, suppliers and movements are unchanged |
| StockManager.CheckStockAlertsForgetsHistory | src/lib/stockManager.ts:210-215 | the rebuilt alerts do not depend on the alerts stored before or on their read flags, so a second rebuild changes nothing |
| StockManager.ApplyMovement | src/lib/stockManager.ts:145-151 | an entry adds its quantity; an exit subtracts it and floors the result at zero |
| StockManager.AddStockMovement | src/lib/stockManager.ts:130-159 | the movement is always appended; only the first product with its id is changed, by that movement, and stamped; the alerts are rebuilt |
| StockManager.MovementsByProduct | src/lib/stockManager.ts:165-168 | the product's movements, exactly those, oldest first, with their multiplicities |
| StockManager.AddProduct | src/lib/stockManager.ts:32-58 | as written: the stamped product is returned; for a fresh id the stored product holds twice a positive initial quantity; one initial-stock entry is logged only when the quantity is positive; the alerts are rebuilt |
| StockManager.AddProductLedgerSafe | src/lib/stockManager.ts:32-58 | as intended: the stored product is the returned one; the same initial-stock entry is logged; the alerts are rebuilt |
| StockManager.UpdateProduct | src/lib/stockManager.ts:64-76 | the first product with the id is replaced and stamped, the others are kept, and the alerts are rebuilt; an unknown id changes nothing, not even the alerts |
| StockManager.DeleteProduct | src/lib/stockManager.ts:78-87 | every product with the id and every movement for it are dropped; the rest keep their order and multiplicity; suppliers and alerts are untouched |
| StockManager.AddSupplier | src/lib/stockManager.ts:95-107 | the supplier, with its id and creation time, is appended; nothing else changes |
| StockManager.UpdateSupplier | src/lib/stockManager.ts:113-121 | the first supplier with the id is replaced as given, with no timestamp and no alert rebuild; an unknown id changes nothing |
| StockManager.DeleteSupplier | src/lib/stockManager.ts:123-127 | every supplier with the id is dropped, the rest keep their order, and products keep their dangling references |
| StockManager.DeleteSupplierUndoesAdd | src/lib/stockManager.ts:95-127 | deleting a freshly added supplier gives back the store as it was |
| StockManager.MarkAlertAsRead | src/lib/stockManager.ts:266-274 | only the first alert with the id is flagged read; an unknown id changes nothing |
| StockManager.MarkAlertAsReadIdempotent | src/lib/stockManager.ts:266-274 | marking twice is marking once, and the next rebuild forgets the flag |
| StockManager.DeleteAlert | src/lib/stockManager.ts:276-280 | every alert with the id is dropped, the others keep their order, and no alert with the id remains |
| StockManager.DeleteAlertIdempotent | src/lib/stockManager.ts:276-280 | deleting an id no alert carries changes nothing, so deleting twice is deleting once |
| StockManager.ImportData | src/lib/stockManager.ts:303-317 | a readable document overwrites exactly the collections it carries and reports success; anything else reports failure and changes nothing |
| StockManager.ImportRoundTrip | src/lib/stockManager.ts:303-317 | a document with all four collections reproduces its store whatever was stored before, and importing a document twice is importing it once |
| LedgerProofs.ReplayNonNegative | src/lib/stockManager.ts:145-151 | replaying from a non-negative quantity, with entries that are not negative, never gives a negative quantity |
| LedgerProofs.AddStockMovementKeepsLedger | src/lib/stockManager.ts:130-159 | with distinct product ids, recording a movement keeps every product's quantity equal to the replay of its movements |
| LedgerProofs.RecordAllReplays | src/lib/stockManager.ts:130-159 | after any run of recorded movements, a product's quantity is its starting quantity with its own movements replayed in call order |
| LedgerProofs.DeleteProductKeepsLedger | src/lib/stockManager.ts:78-87 | deleting a product with its movements keeps the ledger invariant |
| LedgerProofs.CheckStockAlertsKeepsLedger | src/lib/stockManager.ts:210-260 | rebuilding the alerts keeps the ledger invariant |
| LedgerProofs.UpdateProductKeepsLedger | src/lib/stockManager.ts:64-76 | an update that leaves the stored quantity alone keeps the ledger invariant |
| LedgerProofs.AddProductDoublesInitialStock | src/lib/stockManager.ts:41-52 | as written, a fresh product with initial quantity Q > 0 is stored with 2Q, returned with Q, logged with one entry of Q, and the ledger invariant fails |
| LedgerProofs.AddProductLedgerSafeKeepsLedger | src/lib/stockManager.ts:32-58 | the corrected `addProduct` keeps the ledger invariant and distinct ids for a fresh id and a non-negative quantity |
| LedgerProofs.QuantityReplaysHistory | src/lib/stockManager.ts:165-168 | under the ledger invariant, replaying a product's movement history gives its stored quantity |
| LedgerProofs.HistoryAfterRecord | src/lib/stockManager.ts:130-139 | recording a movement appends it to its own product's history and to no other |
| LedgerProofs.HistoryAfterDelete | src/lib/stockManager.ts:78-87 | after a product is deleted its movement history is empty |
| MovementSeries.GetMovementData | src/lib/stockManager.ts:171-207 | one point per day from `days` days ago through today, in order, each with that day's entry and exit totals and the current total stock |
| MovementSeries.SeriesCoversWindow | src/lib/stockManager.ts:179-207 | the entry (or exit) column adds up to all such movements dated in the window |
| MovementSeries.RecordingMovesToday | src/lib/stockManager.ts:181-194 | recording a movement now changes only today's entry or exit total, by its quantity in its own column; every earlier day's entry and exit totals stay as they were |
| MovementSeries.RecordingShiftsStock | src/lib/stockManager.ts:196 | recording a movement shifts the total stock of every point by the change it makes to its product's quantity, and by nothing when no product has its id |
| ProductForm.Validate | src/components/ProductForm.tsx:95-124 | a field is in error exactly when its check fails: blank name or family, negative quantity, threshold or price, or an expiry before now |
| ProductForm.TextChecksUseTrim | src/components/ProductForm.tsx:98-104 | the form's `!value.trim()` test on name and family is the blank test |
| ProductForm.ValidIff | src/components/ProductForm.tsx:95-124 | a form is valid exactly when all six checks pass |
| ProductForm.Normalize | src/components/ProductForm.tsx:137-143 | name and family are the form's fields trimmed; a kept barcode is the trimmed barcode; a barcode that trims to nothing is dropped; the "none" supplier is dropped; the numbers are kept |
| ProductForm.Submit | src/components/ProductForm.tsx:126-172 | an invalid form shows its errors and changes nothing else; a valid one is normalised, added to the ledger and reset |
| ProductForm.SubmittedProductIsSane | src/components/ProductForm.tsx:126-145 | a product that got through the form has a trimmed, non-blank name and family, non-negative numbers, no past expiry and no empty barcode |
| ProductForm.DefaultFormErrors | src/components/ProductForm.tsx:150-159 | the blank form fails on exactly name and family |
| ProductForm.ResubmitAfterSuccessRefused | src/components/ProductForm.tsx:126-159 | submitting again right after a success is refused and leaves the ledger as it was |
| BarcodeScanner.Detect | src/components/BarcodeScanner.tsx:64-71 | a code is accepted exactly when it is non-empty and differs from the last code the handler sees; on accept it becomes the last code, heads a history of at most five, and is counted |
| BarcodeScanner.ReadInput | src/components/BarcodeScanner.tsx:99-105 | blank typed text changes nothing; otherwise its trimmed form is detected and the text is cleared |
| BarcodeScanner.ListenerFallsBehindOnlyOnManualEntry | src/components/BarcodeScanner.tsx:24-62 | after a step the key listener's code differs from the last code only if the step changed neither the flag nor the text, and the listener was behind already or a code was accepted; from an up-to-date listener only a manual entry leaves it behind |
| BarcodeScanner.Step | src/components/BarcodeScanner.tsx:24-105 | per event: Start and Stop set the flag and clear the text; typing sets it; Enter while scanning with non-blank text reports its trim unless the listener saw it last; submitting does the same against the current last code; a manual entry is trimmed, ignored when blank, and leaves the text alone |
| BarcodeScanner.StepIntended | src/components/BarcodeScanner.tsx:27-36 | as intended, every report differs from the current last code and is pushed on the history and counted |
| BarcodeScanner.StepAgreesWhenListenerFresh | src/components/BarcodeScanner.tsx:24-62 | while the listener is up to date, the panel as written and as intended agree |
| BarcodeScanner.RecentSnoc | src/components/BarcodeScanner.tsx:67 | pushing a code on the newest five gives the newest five of the longer log |
| BarcodeScanner.StepsBook | src/components/BarcodeScanner.tsx:64-71 | both versions of the panel push and count every reported code, leave history and count alone otherwise, and keep the panel consistent |
| BarcodeScanner.RunTracksLog | src/components/BarcodeScanner.tsx:64-71 | over any run of events, the history stays the newest five reported codes and the count stays the number reported |
| BarcodeScanner.HistoryIsRecentScans | src/components/BarcodeScanner.tsx:17-21 | from the initial panel, as written or as intended, the history is the newest five reported codes and the count is how many were reported |
| BarcodeScanner.IntendedNeverRepeats | src/components/BarcodeScanner.tsx:64-65 | as intended, no code is reported twice in a row |
| BarcodeScanner.StaleListenerRepeatsCode | src/components/BarcodeScanner.tsx:24-62 | as written, start, type "X", enter "X" by hand, press Enter: "X" is reported twice and counted twice; as intended, once |
| BarcodeScanner.ScanAfterManualEntry | src/components/BarcodeScanner.tsx:73-105 | the panel states of that run, step by step, as written and as intended |
| BarcodeScanner.RepeatIgnored | src/components/BarcodeScanner.tsx:64-65 | scanning the same code twice in a row reports it at most once |
| BarcodeScanner.AlternationAccepted | src/components/BarcodeScanner.tsx:64-71 | alternating two distinct codes reports every scan |

## Left out

- Storage. Reading and writing `localStorage`, and JSON parsing and printing, are left out: a store is a value. An unreadable key reads as an empty collection. `clearAllData`, `exportData` and the plain getters are not modelled.
- StockManager.ImportData: a field that is present and truthy but not an array, such as `{"products": 1}`, is stored by the code (src/lib/stockManager.ts:307-310). `Payload` cannot represent it, because its fields are typed lists.
- Ids. The code builds ids from `Date.now()` and `Math.random()`. They are parameters here: one id per created record, and an `IdSource` for the alerts of a rebuild. The model assumes nothing about their freshness except where a lemma requires it.
- Clock. Every operation reads the clock once, as the parameter `now`. The code reads it several times per call.
- MovementSeries.GetMovementData: the code reads the clock twice (src/lib/stockManager.ts:175-176), and the walk starts from the second read's time of day and stops after the first read (line 181). So today's point is missing whenever the second read comes one millisecond or more after the first. The model is the case where both reads return the same instant. Local-time day steps and daylight-saving shifts are not modelled: days are whole UTC days of 86 400 000 ms. The default `days = 30` (src/lib/stockManager.ts:171) is not modelled, because the window is always a parameter.
- Alert messages are kept as the values they interpolate (`AlertMessage`). The French wording and the `fr-CH` date formatting are not modelled.
- Prices are `real`. Floating-point rounding is not modelled.
- BarcodeScanner.Step: the 100 ms timer of the key listener (src/components/BarcodeScanner.tsx:39-49) is not modelled. A key that changes the typed text re-runs the effect, whose cleanup cancels that key's timer (lines 58-62). So the timer fires only after a key that leaves the text unchanged, such as one typed while the input lacks focus. It then accepts the current text, when longer than five characters, against the listener's stale last code.
- The "Réutiliser" button of the history list (src/components/BarcodeScanner.tsx:220) calls the host page directly, with no duplicate check and no history change. It is not an event here.
- Focus handling, the input's rendering and the `prompt` dialog are not modelled. The dialog's answer is the `Manual` event's argument.
- ProductForm.Submit: the `catch` branch of `handleSubmit` (src/components/ProductForm.tsx:166-168) is not modelled, because the modelled `addProduct` cannot fail. The success message and its 3-second timer are left out too.
- The stale key listener (src/components/BarcodeScanner.tsx:24-62) is modelled, not left out. See Findings.

## Findings

| source | as written | input that shows it | evidently intended | confidence | as-written member | corrected member |
|---|---|---|---|---|---|---|
| src/lib/stockManager.ts:41-52 | `addProduct` saves the product with quantity Q. Its initial-stock entry then goes through `addStockMovement`, which re-reads that product and adds Q again. | a new product with quantity 5 under a fresh id is stored with 10; the returned record and the single logged entry say 5 | the entry is logged and the stored quantity stays Q, so that the quantity equals the replay of the movements | not executed | StockManager.AddProduct, LedgerProofs.AddProductDoublesInitialStock | StockManager.AddProductLedgerSafe, LedgerProofs.AddProductLedgerSafeKeepsLedger |
| src/components/BarcodeScanner.tsx:24-62 | The Enter-key listener is attached again only when `isScanning` or `scannedInput` changes. It keeps the `lastScannedCode` of the render in which it was attached. | Start, type "X", enter "X" through the manual prompt, press Enter: "X" is reported twice, counted twice, and the history reads ["X", "X"] | Enter compares with the current last code, so the same code is never reported twice in a row | not executed | BarcodeScanner.Step, BarcodeScanner.StaleListenerRepeatsCode | BarcodeScanner.StepIntended, BarcodeScanner.IntendedNeverRepeats |

=== FILE: barcode_scanner.dfy ===
/**
 * The barcode scanner panel as a state machine: a scanning flag, the text
 * typed so far, the last accepted code, the five most recent codes and a
 * count of accepted scans. Each user action is an event; accepting a code
 * also reports it to the host page.
 *
 * The Enter key is heard by a page-wide key listener. That listener is a
 * closure re-attached only when the scanning flag or the typed text
 * changes, so the last accepted code it compares against is the one of
 * the moment it was attached (`listenerCode`), which can lag behind.
 */
module BarcodeScanner {
  import opened Wrappers
  import opened Text

  /** How many recent codes the panel keeps. */
  const HistoryLimit: nat := 5

  datatype ScannerState = ScannerState(
    scanning: bool,
    input: string,
    lastCode: string,
    history: seq<string>,
    count: nat,
    listenerCode: string)

  /** The panel as first shown. */
  const Initial: ScannerState := ScannerState(false, "", "", [], 0, "")

  /** The state after an event, and the code reported to the host page, if any. */
  datatype Reaction = Reaction(state: ScannerState, emitted: Option<string>)

  /**
   * The panel's own consistency: the history is bounded, newest first,
   * headed by the last accepted code, free of empty codes, and never
   * longer than the scan count.
   */
  predicate Consistent(s: ScannerState) {
    && |s.history| <= HistoryLimit
    && (|s.history| > 0 ==> s.history[0] == s.lastCode)
    && (s.lastCode == "" <==> |s.history| == 0)
    && (forall k :: 0 <= k < |s.history| ==> s.history[k] != "")
    && |s.history| <= s.count
  }

  /** No code appears twice in a row in a list. */
  predicate NoAdjacentRepeats(codes: seq<string>) {
    forall k :: 0 < k < |codes| ==> codes[k - 1] != codes[k]
  }

  /** The history after accepting `code`: the code in front, then at most the four newest before it. */
  function Push(history: seq<string>, code: string): seq<string> {
    [code] + (if |history| < HistoryLimit then history else history[..HistoryLimit - 1])
  }

  /**
   * `handleBarcodeDetected`, as a closure that reads `seen` as the last
   * accepted code: a non-empty code that differs from `seen` is accepted;
   * anything else is ignored. History and count are updated from their
   * current values.
   */
  function Detect(s: ScannerState, code: string, seen: string): (r: Reaction)
    ensures r.emitted.Some? <==> code != "" && code != seen
    ensures r.emitted.Some? ==> r.emitted.value == code && r.state.lastCode == code
    ensures r.emitted.Some? ==> r.state.history == Push(s.history, code) && r.state.count == s.count + 1
    ensures r.emitted.None? ==> r.state == s
    ensures r.state.scanning == s.scanning && r.state.input == s.input && r.state.listenerCode == s.listenerCode
    ensures Consistent(s) ==> Consistent(r.state)
  {
    if code != "" && code != seen then
      Reaction(s.(lastCode := code, history := Push(s.history, code), count := s.count + 1), Some(code))
    else Reaction(s, None)
  }

  /** What the user can do. */
  datatype Event =
    | Start                          // "Activer le Scanner"
    | Stop                           // "Arrêter"
    | Typed(value: string)           // the input box changes
    | EnterKey                       // Enter pressed anywhere on the page
    | SubmitInput                    // the input's form is submitted
    | Manual(answer: Option<string>) // the manual-entry prompt; None when cancelled

  /**
   * What every handler promises about the code it reports, if any: a
   * non-empty, trimmed code different from `seen`, now the last code, in
   * front of the history, and counted; when nothing is reported, the last
   * code, history and count stay as they were. The panel stays consistent.
   */
  predicate Reports(s: ScannerState, r: Reaction, seen: string) {
    && (r.emitted.Some? ==>
          && r.emitted.value != "" && r.emitted.value == Trim(r.emitted.value) && r.emitted.value != seen
          && r.state.lastCode == r.emitted.value
          && r.state.history == Push(s.history, r.emitted.value) && r.state.count == s.count + 1)
    && (r.emitted.None? ==> r.state.lastCode == s.lastCode && r.state.history == s.history && r.state.count == s.count)
    && (Consistent(s) ==> Consistent(r.state))
  }

  /** Detects the trimmed text against `seen`, unless it trims to nothing. */
  function DetectTrimmed(s: ScannerState, text: string, seen: string): (r: Reaction)
    ensures IsBlank(text) ==> r == Reaction(s, None)
    ensures !IsBlank(text) ==> r.emitted == (if Trim(text) != seen then Some(Trim(text)) else None)
    ensures r.state.scanning == s.scanning && r.state.input == s.input && r.state.listenerCode == s.listenerCode
    ensures Reports(s, r, seen)
  {
    TrimEmptyIffBlank(text);
    TrimIdempotent(text);
    if Trim(text) != "" then Detect(s, Trim(text), seen) else Reaction(s, None)
  }

  /**
   * The typed text read as a code against `seen`: a blank text changes
   * nothing; otherwise its trimmed form is detected and the text cleared.
   */
  function ReadInput(s: ScannerState, seen: string): (r: Reaction)
    ensures IsBlank(s.input) ==> r == Reaction(s, None)
    ensures !IsBlank(s.input) ==>
      r.state.input == "" && r.emitted == (if Trim(s.input) != seen then Some(Trim(s.input)) else None)
    ensures r.state.scanning == s.scanning && r.state.listenerCode == s.listenerCode
    ensures Reports(s, r, seen)
  {
    if IsBlank(s.input) then Reaction(s, None)
    else
      var d := DetectTrimmed(s, s.input, seen);
      Reaction(d.state.(input := ""), d.emitted)
  }

  /** The handlers themselves, before the key listener is re-attached. */
  function Handle(s: ScannerState, e: Event): (r: Reaction)
    ensures Reports(s, r, if e == EnterKey then s.listenerCode else s.lastCode)
    ensures r.state.listenerCode == s.listenerCode
  {
    match e
    case Start => Reaction(s.(scanning := true, input := ""), None)
    case Stop => Reaction(s.(scanning := false, input := ""), None)
    case Typed(v) => Reaction(s.(input := v), None)
    case EnterKey => if s.scanning then ReadInput(s, s.listenerCode) else Reaction(s, None)
    case SubmitInput => ReadInput(s, s.lastCode)
    case Manual(answer) =>
      match answer
      case None => Reaction(s, None)
      case Some(a) => DetectTrimmed(s, a, s.lastCode)
  }

  /** Re-attaches the key listener, with the current last code, when the flag or the text changed. */
  function Reattach(before: ScannerState, h: Reaction): (r: Reaction)
    ensures r.emitted == h.emitted
    ensures r.state == h.state.(listenerCode := r.state.listenerCode)
    ensures r.state.listenerCode ==
      if h.state.scanning != before.scanning || h.state.input != before.input then h.state.lastCode else h.state.listenerCode
  {
    if h.state.scanning != before.scanning || h.state.input != before.input then
      Reaction(h.state.(listenerCode := h.state.lastCode), h.emitted)
    else h
  }

  /**
   * The panel's response to one event, as written. Start and Stop set the
   * flag and clear the typed text; typing replaces it. Enter, only while
   * scanning and with non-blank text, reports the trimmed text unless the
   * key listener saw it as the last code, and clears the text either way.
   * Submitting the input does the same whatever the flag, against the
   * current last code. A manual entry is trimmed, ignored when blank or
   * cancelled, and leaves the typed text alone. Afterwards the key
   * listener is re-attached, seeing the new last code, exactly when the
   * flag or the text changed.
   */
  function Step(s: ScannerState, e: Event): (r: Reaction)
    ensures Reports(s, r, if e == EnterKey then s.listenerCode else s.lastCode)
    ensures r.state.listenerCode ==
      if r.state.scanning != s.scanning || r.state.input != s.input then r.state.lastCode else s.listenerCode
    ensures e == Start ==> r.emitted == None && r.state.scanning && r.state.input == ""
    ensures e == Stop ==> r.emitted == None && !r.state.scanning && r.state.input == ""
    ensures e.Typed? ==> r.emitted == None && r.state.scanning == s.scanning && r.state.input == e.value
    ensures e == EnterKey ==>
      r.state.scanning == s.scanning &&
      if s.scanning && !IsBlank(s.input) then
        r.state.input == "" &&
        r.emitted == (if Trim(s.input) != s.listenerCode then Some(Trim(s.input)) else None)
      else r.state.input == s.input && r.emitted == None
    ensures e == SubmitInput ==>
      r.state.scanning == s.scanning &&
      if !IsBlank(s.input) then
        r.state.input == "" &&
        r.emitted == (if Trim(s.input) != s.lastCode then Some(Trim(s.input)) else None)
      else r.state.input == s.input && r.emitted == None
    ensures e.Manual? ==>
      r.state.scanning == s.scanning && r.state.input == s.input &&
      r.emitted == (if e.answer.Some? && !IsBlank(e.answer.value) && Trim(e.answer.value) != s.lastCode
                    then Some(Trim(e.answer.value)) else None)
  {
    Reattach(s, Handle(s, e))
  }

  /**
   * The panel as evidently intended: the key listener always compares
   * against the current last code, as every other entry path does.
   */
  function StepIntended(s: ScannerState, e: Event): (r: Reaction)
    ensures Reports(s, r, s.lastCode)
  {
    Step(s.(listenerCode := s.lastCode), e)
  }

  /** The two agree whenever the key listener is up to date. */
  lemma StepAgreesWhenListenerFresh(s: ScannerState, e: Event)
    requires s.listenerCode == s.lastCode
    ensures Step(s, e) == StepIntended(s, e)
  {
    assert s.(listenerCode := s.lastCode) == s;
  }

  /**
   * How the key listener falls behind: after a step its code differs from
   * the last code only if the step changed neither the flag nor the text,
   * and the listener was behind already or the step accepted a code. From
   * an up-to-date listener, only a manual entry leaves it behind.
   */
  lemma ListenerFallsBehindOnlyOnManualEntry(s: ScannerState, e: Event)
    ensures var r := Step(s, e);
      r.state.listenerCode != r.state.lastCode ==>
        && r.state.scanning == s.scanning && r.state.input == s.input
        && (s.listenerCode != s.lastCode || r.emitted.Some?)
    ensures var r := Step(s, e);
      s.listenerCode == s.lastCode && r.state.listenerCode != r.state.lastCode ==> e.Manual?
  {
  }

  /** A run of events: the final state and every code reported, in order. */
  datatype Trace = Trace(state: ScannerState, emitted: seq<string>)

  /** A panel's response to one event: `Step` as written, or `StepIntended`. */
  type Stepper = (ScannerState, Event) -> Reaction

  /**
   * What both versions of the panel do with the history on every event:
   * a reported code is pushed and counted, no code leaves history and
   * count alone, and the panel stays consistent.
   */
  predicate Books(s: ScannerState, r: Reaction) {
    && (r.emitted.Some? ==> r.state.history == Push(s.history, r.emitted.value) && r.state.count == s.count + 1)
    && (r.emitted.None? ==> r.state.history == s.history && r.state.count == s.count)
    && (Consistent(s) ==> Consistent(r.state))
  }

  ghost predicate BooksEveryStep(step: Stepper) {
    forall s, e :: Books(s, step(s, e))
  }

  /** Both versions of the panel book every event. */
  lemma StepsBook()
    ensures BooksEveryStep(Step) && BooksEveryStep(StepIntended)
  {
    forall s, e ensures Books(s, Step(s, e)) && Books(s, StepIntended(s, e)) {
      var _ := Step(s, e);
      var _ := StepIntended(s, e);
    }
  }

  /** Runs the events through the panel. */
  function Run(s: ScannerState, events: seq<Event>, step: Stepper): (t: Trace)
    decreases |events|
  {
    if |events| == 0 then Trace(s, [])
    else
      var x := step(s, events[0]);
      var rest := Run(x.state, events[1..], step);
      Trace(rest.state, Reported(x) + rest.emitted)
  }

  /** The code a reaction reports, as a list of zero or one. */
  function Reported(r: Reaction): (codes: seq<string>)
    ensures |codes| <= 1
    ensures r.emitted.Some? <==> |codes| == 1
    ensures r.emitted.Some? ==> codes[0] == r.emitted.value
  {
    if r.emitted.Some? then [r.emitted.value] else []
  }

  /** The newest `HistoryLimit` entries of a log, newest first. */
  function Recent(log: seq<string>): (r: seq<string>)
    ensures |r| == if |log| < HistoryLimit then |log| else HistoryLimit
  {
    var n := if |log| < HistoryLimit then |log| else HistoryLimit;
    seq(n, (k: int) requires 0 <= k < n => log[|log| - 1 - k])
  }

  /** Accepting a code puts it in front of the recent list and drops the oldest beyond the limit. */
  lemma RecentSnoc(log: seq<string>, code: string)
    ensures Recent(log + [code]) == Push(Recent(log), code)
  {
    var a := Recent(log + [code]);
    var old5 := Recent(log);
    var b := Push(old5, code);
    assert |a| == |b|;
    forall k | 0 <= k < |a| ensures a[k] == b[k] {
      if k > 0 {
        assert a[k] == log[|log| - k];
        assert b[k] == old5[k - 1];
      }
    }
  }

  /** One booked step keeps the history and count in step with the log. */
  lemma StepTracksLog(s: ScannerState, log: seq<string>, r: Reaction)
    requires s.history == Recent(log) && s.count == |log|
    requires Books(s, r)
    ensures r.state.history == Recent(log + Reported(r)) && r.state.count == |log + Reported(r)|
  {
    if r.emitted.Some? {
      RecentSnoc(log, r.emitted.value);
    } else {
      assert log + [] == log;
    }
  }

  /**
   * The history is the newest five codes ever reported, newest first, and
   * the count is the number of codes reported, when both matched a log
   * before the run.
   */
  lemma {:induction false} RunTracksLog(s: ScannerState, log: seq<string>, events: seq<Event>, step: Stepper)
    requires BooksEveryStep(step)
    requires s.history == Recent(log) && s.count == |log|
    ensures var t := Run(s, events, step);
      && t.state.history == Recent(log + t.emitted) && t.state.count == |log| + |t.emitted|
      && (Consistent(s) ==> Consistent(t.state))
    decreases |events|
  {
    if |events| == 0 {
      assert log + [] == log;
    } else {
      var x := step(s, events[0]);
      var rest := Run(x.state, events[1..], step);
      assert log + (Reported(x) + rest.emitted) == (log + Reported(x)) + rest.emitted;
      StepTracksLog(s, log, x);
      RunTracksLog(x.state, log + Reported(x), events[1..], step);
    }
  }

  /**
   * From the initial panel, as written or as intended, the history is the
   * newest five reported codes and the count is how many were reported.
   */
  lemma HistoryIsRecentScans(events: seq<Event>)
    ensures forall step :: step == Step || step == StepIntended ==>
      var t := Run(Initial, events, step);
      t.state.history == Recent(t.emitted) && t.state.count == |t.emitted| && Consistent(t.state)
  {
    StepsBook();
    assert Initial.history == Recent([]);
    forall step | step == Step || step == StepIntended
      ensures var t := Run(Initial, events, step);
        t.state.history == Recent(t.emitted) && t.state.count == |t.emitted| && Consistent(t.state)
    {
      RunTracksLog(Initial, [], events, step);
      assert [] + Run(Initial, events, step).emitted == Run(Initial, events, step).emitted;
    }
  }

  /**
   * As intended, no code is reported twice in a row, and the first code
   * reported differs from the last code accepted before the run.
   */
  lemma {:induction false} IntendedNeverRepeats(s: ScannerState, events: seq<Event>)
    ensures var t := Run(s, events, StepIntended);
      NoAdjacentRepeats(t.emitted) && (|t.emitted| > 0 ==> t.emitted[0] != s.lastCode)
    decreases |events|
  {
    if |events| > 0 {
      var x := StepIntended(s, events[0]);
      var rest := Run(x.state, events[1..], StepIntended);
      IntendedNeverRepeats(x.state, events[1..]);
      if x.emitted.Some? {
        var out := [x.emitted.value] + rest.emitted;
        assert Run(s, events, StepIntended).emitted == out;
        forall k | 0 < k < |out| ensures out[k - 1] != out[k] {
          if k > 1 {
            assert out[k - 1] == rest.emitted[k - 2] && out[k] == rest.emitted[k - 1];
          }
        }
      } else {
        assert Run(s, events, StepIntended).emitted == [] + rest.emitted;
      }
    }
  }

  /**
   * As written, a code entered by hand and then scanned with Enter is
   * reported twice: the key listener, attached when the text was typed,
   * still sees no last code. The intended panel reports it once.
   */
  lemma StaleListenerRepeatsCode()
    ensures var events := [Start, Typed("X"), Manual(Some("X")), EnterKey];
      var asWritten := Run(Initial, events, Step);
      var intended := Run(Initial, events, StepIntended);
      && asWritten.emitted == ["X", "X"]
      && asWritten.state.history == ["X", "X"]
      && asWritten.state.count == 2
      && intended.emitted == ["X"]
      && intended.state.history == ["X"]
  {
    var events := [Start, Typed("X"), Manual(Some("X")), EnterKey];
    assert events[1..] == [Typed("X"), Manual(Some("X")), EnterKey];
    assert events[1..][1..] == [Manual(Some("X")), EnterKey];
    assert [Manual(Some("X")), EnterKey][1..] == [EnterKey];
    assert [EnterKey][1..] == [];
    ScanAfterManualEntry();
  }

  /**
   * The panel states of that run, step by step: scanning started, "X"
   * typed, "X" entered by hand (the listener still sees no last code),
   * then Enter, which as written reports "X" again and as intended does not.
   */
  lemma ScanAfterManualEntry()
    ensures var s1 := ScannerState(true, "", "", [], 0, "");
      var s2 := ScannerState(true, "X", "", [], 0, "");
      var s3 := ScannerState(true, "X", "X", ["X"], 1, "");
      && Step(Initial, Start) == Reaction(s1, None) == StepIntended(Initial, Start)
      && Step(s1, Typed("X")) == Reaction(s2, None) == StepIntended(s1, Typed("X"))
      && Step(s2, Manual(Some("X"))) == Reaction(s3, Some("X")) == StepIntended(s2, Manual(Some("X")))
      && Step(s3, EnterKey) == Reaction(ScannerState(true, "", "X", ["X", "X"], 2, "X"), Some("X"))
      && StepIntended(s3, EnterKey) == Reaction(ScannerState(true, "", "X", ["X"], 1, "X"), None)
  {
    TrimUntouched("X");
    assert !IsBlank("X") by {
      assert !IsWhitespace("X"[0]);
    }
  }

  /** Scanning the same code twice reports it at most once. */
  lemma RepeatIgnored(s: ScannerState, code: string)
    ensures var first := Detect(s, code, s.lastCode);
      Detect(first.state, code, first.state.lastCode) == Reaction(first.state, None)
  {
  }

  /** Alternating two distinct codes reports every scan. */
  lemma AlternationAccepted(s: ScannerState, a: string, b: string)
    requires a != "" && b != "" && a != b && s.lastCode != a
    ensures var r1 := Detect(s, a, s.lastCode);
      var r2 := Detect(r1.state, b, r1.state.lastCode);
      var r3 := Detect(r2.state, a, r2.state.lastCode);
      r1.emitted == Some(a) && r2.emitted == Some(b) && r3.emitted == Some(a) && r3.state.count == s.count + 3
  {
  }
}

=== FILE: ledger_proofs.dfy ===
/**
 * The ledger invariant: a product's stored quantity is what replaying its
 * movements, oldest first, gives from zero. Recording movements, deleting
 * products and rebuilding alerts keep it; `addProduct` as written breaks it.
 */
module LedgerProofs {
  import opened Wrappers
  import opened Seqs
  import opened StockTypes
  import opened StockManager

  /** Replays movements in order over a starting quantity. */
  function Replay(q: int, ms: seq<Movement>): int
    decreases |ms|
  {
    if |ms| == 0 then q else Replay(ApplyMovement(q, ms[0].kind, ms[0].quantity), ms[1..])
  }

  /** Replaying one more movement applies it to the replay of the others. */
  lemma {:induction false} ReplaySnoc(q: int, ms: seq<Movement>, m: Movement)
    ensures Replay(q, ms + [m]) == ApplyMovement(Replay(q, ms), m.kind, m.quantity)
    decreases |ms|
  {
    if |ms| > 0 {
      assert (ms + [m])[1..] == ms[1..] + [m];
      ReplaySnoc(ApplyMovement(q, ms[0].kind, ms[0].quantity), ms[1..], m);
    }
  }

  /** Replaying a sequence with a known first movement applies that movement first. */
  lemma ReplayCons(q: int, m: Movement, ms: seq<Movement>)
    ensures Replay(q, [m] + ms) == Replay(ApplyMovement(q, m.kind, m.quantity), ms)
  {
    assert ([m] + ms)[1..] == ms;
  }

  /** A replay that starts from a non-negative quantity never goes negative once an exit floors it. */
  lemma {:induction false} ReplayNonNegative(q: int, ms: seq<Movement>)
    requires q >= 0
    requires forall k :: 0 <= k < |ms| ==> ms[k].kind == Entry ==> ms[k].quantity >= 0
    ensures Replay(q, ms) >= 0
    decreases |ms|
  {
    if |ms| > 0 {
      ReplayNonNegative(ApplyMovement(q, ms[0].kind, ms[0].quantity), ms[1..]);
    }
  }

  /** The quantity the movement log implies for a product id. */
  function LedgerQuantity(ms: seq<Movement>, id: Id): int {
    Replay(0, Filter(ms, ForProduct(id)))
  }

  /** Every product's stored quantity equals the replay of its movements. */
  predicate LedgerConsistent(st: Store) {
    forall i :: 0 <= i < |st.products| ==> st.products[i].quantity == LedgerQuantity(st.movements, st.products[i].id)
  }

  lemma FilterSingleton(m: Movement, f: Movement -> bool)
    ensures Filter([m], f) == if f(m) then [m] else []
  {
    assert [m][1..] == [];
  }

  /** With distinct ids, the product at position i is the first with its id. */
  lemma IndexOfUnique(ps: seq<Product>, i: nat)
    requires UniqueProductIds(ps) && i < |ps|
    ensures ProductIndex(ps, ps[i].id) == Some(i)
  {
  }

  /** Recording a movement keeps the ledger invariant when product ids are distinct. */
  lemma AddStockMovementKeepsLedger(st: Store, req: MovementRequest, id: Id, now: Instant, ids: IdSource)
    requires UniqueProductIds(st.products)
    requires LedgerConsistent(st)
    ensures LedgerConsistent(AddStockMovement(st, req, id, now, ids).store)
  {
    var r := AddStockMovement(st, req, id, now, ids);
    var m := r.movement;
    forall i | 0 <= i < |r.store.products|
      ensures r.store.products[i].quantity == LedgerQuantity(r.store.movements, r.store.products[i].id)
    {
      var pid := st.products[i].id;
      FilterAppend(st.movements, [m], ForProduct(pid));
      FilterSingleton(m, ForProduct(pid));
      if pid == req.productId {
        IndexOfUnique(st.products, i);
        ReplaySnoc(0, Filter(st.movements, ForProduct(pid)), m);
      } else {
        assert Filter(st.movements, ForProduct(pid)) + [] == Filter(st.movements, ForProduct(pid));
      }
    }
  }

  /** Dropping the movements of one product leaves every other product's movements as they were. */
  lemma {:induction false} FilterOtherProduct(ms: seq<Movement>, gone: Id, pid: Id)
    requires gone != pid
    ensures Filter(Filter(ms, NotForProduct(gone)), ForProduct(pid)) == Filter(ms, ForProduct(pid))
  {
    if |ms| > 0 {
      var h, t := ms[0], ms[1..];
      var keep, mine := NotForProduct(gone), ForProduct(pid);
      assert ms == [h] + t;
      FilterOtherProduct(t, gone, pid);
      FilterCons(h, t, keep);
      FilterCons(h, t, mine);
      if h.productId == gone {
        assert Filter(ms, keep) == Filter(t, keep);
        assert Filter(ms, mine) == Filter(t, mine);
      } else {
        assert Filter(ms, keep) == [h] + Filter(t, keep);
        FilterCons(h, Filter(t, keep), mine);
      }
    }
  }

  /** Deleting a product, with its movements, keeps the ledger invariant. */
  lemma DeleteProductKeepsLedger(st: Store, id: Id)
    requires LedgerConsistent(st)
    ensures LedgerConsistent(DeleteProduct(st, id))
  {
    var r := DeleteProduct(st, id);
    forall k | 0 <= k < |r.products|
      ensures r.products[k].quantity == LedgerQuantity(r.movements, r.products[k].id)
    {
      var p := r.products[k];
      assert p in r.products;
      assert multiset(r.products)[p] > 0;
      assert p in st.products;
      var i :| 0 <= i < |st.products| && st.products[i] == p;
      FilterOtherProduct(st.movements, id, p.id);
    }
  }

  /** Rebuilding alerts touches neither products nor movements, so it keeps the invariant. */
  lemma CheckStockAlertsKeepsLedger(st: Store, now: Instant, ids: IdSource)
    requires LedgerConsistent(st)
    ensures LedgerConsistent(CheckStockAlerts(st, now, ids))
  {
  }

  /** An update that leaves the quantity as stored keeps the invariant. */
  lemma UpdateProductKeepsLedger(st: Store, updated: Product, now: Instant, ids: IdSource)
    requires LedgerConsistent(st)
    requires forall i :: 0 <= i < |st.products| && st.products[i].id == updated.id ==>
      st.products[i].quantity == updated.quantity
    ensures LedgerConsistent(UpdateProduct(st, updated, now, ids))
  {
  }

  /**
   * The discrepancy in `addProduct` as written: adding a product with
   * initial quantity Q > 0 under a fresh id stores 2Q, returns Q, and logs a
   * single entry of Q, so the ledger invariant no longer holds.
   */
  lemma AddProductDoublesInitialStock(st: Store, data: ProductData, id: Id, now: Instant, movementId: Id, ids: IdSource)
    requires !HasProduct(st.products, id)
    requires forall k :: 0 <= k < |st.movements| ==> st.movements[k].productId != id
    requires data.quantity > 0
    ensures var r := AddProduct(st, data, id, now, movementId, ids);
      && r.store.products[|st.products|].id == id
      && r.store.products[|st.products|].quantity == 2 * data.quantity
      && r.product.quantity == data.quantity
      && LedgerQuantity(r.store.movements, id) == data.quantity
      && !LedgerConsistent(r.store)
  {
    var r := AddProduct(st, data, id, now, movementId, ids);
    var m := Movement(movementId, id, Entry, data.quantity, InitialStockReason, now, None);
    assert r.store.movements == st.movements + [m];
    var before := Filter(st.movements, ForProduct(id));
    assert before == [] by {
      assert forall x :: x in st.movements ==> x.productId != id;
    }
    FilterAppend(st.movements, [m], ForProduct(id));
    FilterSingleton(m, ForProduct(id));
    assert Filter(r.store.movements, ForProduct(id)) == [m];
    assert [m][1..] == [];
    assert Replay(0, [m]) == Replay(ApplyMovement(0, Entry, data.quantity), []);
    assert LedgerQuantity(r.store.movements, id) == data.quantity;
    var k := |st.products|;
    assert r.store.products[k].id == id && r.store.products[k].quantity == 2 * data.quantity;
    assert r.store.products[k].quantity != LedgerQuantity(r.store.movements, r.store.products[k].id);
  }

  /**
   * The corrected `addProduct` keeps the invariant for a fresh id and a
   * non-negative initial quantity (which the product form guarantees).
   */
  lemma AddProductLedgerSafeKeepsLedger(st: Store, data: ProductData, id: Id, now: Instant, movementId: Id, ids: IdSource)
    requires LedgerConsistent(st)
    requires UniqueProductIds(st.products)
    requires !HasProduct(st.products, id)
    requires forall k :: 0 <= k < |st.movements| ==> st.movements[k].productId != id
    requires data.quantity >= 0
    ensures var r := AddProductLedgerSafe(st, data, id, now, movementId, ids);
      LedgerConsistent(r.store) && UniqueProductIds(r.store.products)
  {
    var r := AddProductLedgerSafe(st, data, id, now, movementId, ids);
    var m := Movement(movementId, id, Entry, data.quantity, InitialStockReason, now, None);
    var added := if data.quantity > 0 then [m] else [];
    assert r.store.movements == st.movements + added;
    assert r.store.products == st.products + [Stamp(data, id, now)];
    forall i | 0 <= i < |st.products|
      ensures r.store.products[i].quantity == LedgerQuantity(r.store.movements, r.store.products[i].id)
    {
      assert r.store.products[i] == st.products[i];
      LedgerIgnoresOtherIds(st.movements, added, st.products[i].id);
    }
    NewIdHasNoMovements(st.movements, id);
    if data.quantity > 0 {
      FilterAppend(st.movements, [m], ForProduct(id));
      FilterSingleton(m, ForProduct(id));
      assert Filter(r.store.movements, ForProduct(id)) == [m];
      assert [m][1..] == [];
      assert Replay(0, [m]) == Replay(ApplyMovement(0, Entry, data.quantity), []);
      assert LedgerQuantity(r.store.movements, id) == data.quantity;
    } else {
      assert r.store.movements == st.movements;
      assert LedgerQuantity(r.store.movements, id) == 0;
    }
    assert r.store.products[|st.products|].quantity == LedgerQuantity(r.store.movements, id);
    assert UniqueProductIds(r.store.products) by {
      forall a, b | 0 <= a < b < |r.store.products| ensures r.store.products[a].id != r.store.products[b].id {
        if b == |st.products| {
          assert r.store.products[a] == st.products[a];
        } else {
          assert r.store.products[a] == st.products[a] && r.store.products[b] == st.products[b];
        }
      }
    }
  }

  /** Movements for other ids do not change a product's ledger quantity. */
  lemma LedgerIgnoresOtherIds(ms: seq<Movement>, extra: seq<Movement>, pid: Id)
    requires forall k :: 0 <= k < |extra| ==> extra[k].productId != pid
    ensures LedgerQuantity(ms + extra, pid) == LedgerQuantity(ms, pid)
  {
    FilterAppend(ms, extra, ForProduct(pid));
    NewIdHasNoMovements(extra, pid);
    assert Filter(ms, ForProduct(pid)) + [] == Filter(ms, ForProduct(pid));
  }

  /** An id no movement refers to has an empty movement history. */
  lemma NewIdHasNoMovements(ms: seq<Movement>, id: Id)
    requires forall k :: 0 <= k < |ms| ==> ms[k].productId != id
    ensures Filter(ms, ForProduct(id)) == []
  {
    assert forall x :: x in ms ==> x.productId != id;
  }

  /** A sequence that starts with `p + [x]` continues, after `p`, with `x` and then the rest. */
  lemma SplitAfterPrefix<T>(s: seq<T>, p: seq<T>, x: T)
    requires |p| < |s| && s[..|p| + 1] == p + [x]
    ensures s[|p|..] == [x] + s[|p| + 1..]
  {
    assert s[|p|] == s[..|p| + 1][|p|];
  }

  /** Records the calls in order, each `(request, movement id)`. */
  function RecordAll(st: Store, calls: seq<(MovementRequest, Id)>, now: Instant, ids: IdSource): (r: Store)
    ensures r.suppliers == st.suppliers
    ensures |r.products| == |st.products|
    ensures forall i :: 0 <= i < |st.products| ==> r.products[i].id == st.products[i].id
    ensures |r.movements| == |st.movements| + |calls|
    ensures r.movements[..|st.movements|] == st.movements
    decreases |calls|
  {
    if |calls| == 0 then st
    else
      var next := AddStockMovement(st, calls[0].0, calls[0].1, now, ids).store;
      var r := RecordAll(next, calls[1..], now, ids);
      assert r.movements[..|st.movements|] == next.movements[..|next.movements|][..|st.movements|];
      r
  }

  /** One recorded movement keeps ids distinct and moves product i only when aimed at it. */
  lemma RecordStep(st: Store, req: MovementRequest, id: Id, now: Instant, ids: IdSource, i: nat)
    requires UniqueProductIds(st.products) && i < |st.products|
    ensures var next := AddStockMovement(st, req, id, now, ids).store;
      && UniqueProductIds(next.products)
      && next.products[i].id == st.products[i].id
      && next.products[i].quantity ==
           if req.productId == st.products[i].id then ApplyMovement(st.products[i].quantity, req.kind, req.quantity)
           else st.products[i].quantity
  {
    var next := AddStockMovement(st, req, id, now, ids).store;
    assert forall j :: 0 <= j < |st.products| ==> next.products[j].id == st.products[j].id;
    if req.productId == st.products[i].id {
      IndexOfUnique(st.products, i);
    } else {
      assert next.products[i] == st.products[i];
    }
  }

  /**
   * For any run of `addStockMovement` calls, a product's final quantity is
   * its starting quantity with the movements aimed at it replayed in call
   * order (entries added, exits floored at zero).
   */
  lemma {:induction false} RecordAllReplays(st: Store, calls: seq<(MovementRequest, Id)>, now: Instant, ids: IdSource, i: nat)
    requires UniqueProductIds(st.products)
    requires i < |st.products|
    ensures RecordAll(st, calls, now, ids).products[i].quantity
            == Replay(st.products[i].quantity, Filter(RecordAll(st, calls, now, ids).movements[|st.movements|..], ForProduct(st.products[i].id)))
    decreases |calls|
  {
    var pid := st.products[i].id;
    var f := ForProduct(pid);
    var r := RecordAll(st, calls, now, ids);
    if |calls| == 0 {
      assert r.movements[|st.movements|..] == [];
    } else {
      var step := AddStockMovement(st, calls[0].0, calls[0].1, now, ids);
      var next := step.store;
      var m := step.movement;
      assert r == RecordAll(next, calls[1..], now, ids);
      RecordStep(st, calls[0].0, calls[0].1, now, ids, i);
      RecordAllReplays(next, calls[1..], now, ids, i);
      var rest := r.movements[|next.movements|..];
      SplitAfterPrefix(r.movements, st.movements, m);
      FilterCons(m, rest, f);
      if calls[0].0.productId == pid {
        ReplayCons(st.products[i].quantity, m, Filter(rest, f));
      }
    }
  }

  /**
   * A product's movement history, as `getMovementsByProduct` lists it,
   * explains its stored quantity whenever the ledger invariant holds.
   */
  lemma QuantityReplaysHistory(st: Store, i: nat)
    requires LedgerConsistent(st) && i < |st.products|
    ensures st.products[i].quantity == Replay(0, MovementsByProduct(st, st.products[i].id))
  {
  }

  /** Recording a movement appends it to its own product's history and to no other. */
  lemma HistoryAfterRecord(st: Store, req: MovementRequest, id: Id, now: Instant, ids: IdSource, pid: Id)
    ensures var r := AddStockMovement(st, req, id, now, ids);
      MovementsByProduct(r.store, pid)
        == MovementsByProduct(st, pid) + (if req.productId == pid then [r.movement] else [])
  {
    var r := AddStockMovement(st, req, id, now, ids);
    FilterAppend(st.movements, [r.movement], ForProduct(pid));
    FilterSingleton(r.movement, ForProduct(pid));
  }

  /** After a product is deleted its history is empty. */
  lemma HistoryAfterDelete(st: Store, id: Id)
    ensures MovementsByProduct(DeleteProduct(st, id), id) == []
  {
    var d := DeleteProduct(st, id);
    assert forall k :: 0 <= k < |d.movements| ==> d.movements[k] in d.movements;
    NewIdHasNoMovements(d.movements, id);
  }
}

=== FILE: product_form.dfy ===
/**
 * The product entry form: field validation, the normalisation applied on
 * submit, the hand-off to the ledger and the reset that follows.
 */
module ProductForm {
  import opened Wrappers
  import opened Text
  import opened StockTypes
  import StockManager

  /** What the form holds while the user types. Text fields are raw; the expiry is optional. */
  datatype FormState = FormState(
    name: string,
    family: string,
    barcode: string,
    quantity: int,
    threshold: int,
    expiry: Option<Instant>,
    supplierId: string,
    unitPrice: real)

  /** The form as first shown and as reset after a successful submit. */
  const DefaultForm: FormState := FormState("", "", "", 0, 5, None, "", 0.0)

  /** The value of the supplier selector that means "no supplier". */
  const NoSupplier: string := "none"

  /** The fields that can carry a validation error. */
  datatype Field = Name | Family | Quantity | Threshold | UnitPrice | Expiry

  /** Every field the form validates. */
  const AllFields: set<Field> := {Name, Family, Quantity, Threshold, UnitPrice, Expiry}

  /**
   * The check the form applies to one field. A text field fails when it
   * trims to nothing, which is when it is blank (`Text.TrimEmptyIffBlank`);
   * a zero price is skipped, as falsy, which changes nothing since zero is
   * not negative.
   */
  predicate Fails(f: FormState, now: Instant, x: Field) {
    match x
    case Name => IsBlank(f.name)
    case Family => IsBlank(f.family)
    case Quantity => f.quantity < 0
    case Threshold => f.threshold < 0
    case UnitPrice => f.unitPrice != 0.0 && f.unitPrice < 0.0
    case Expiry => f.expiry.Some? && f.expiry.value < now
  }

  /**
   * `validateForm`: the set of fields in error. Name and family must not
   * be blank, quantity, threshold and price must not be negative, and an
   * expiry date must not lie before the moment of submission.
   */
  function Validate(f: FormState, now: Instant): (errors: set<Field>)
    ensures Name in errors <==> IsBlank(f.name)
    ensures Family in errors <==> IsBlank(f.family)
    ensures Quantity in errors <==> f.quantity < 0
    ensures Threshold in errors <==> f.threshold < 0
    ensures UnitPrice in errors <==> f.unitPrice < 0.0
    ensures Expiry in errors <==> f.expiry.Some? && f.expiry.value < now
  {
    set x | x in AllFields && Fails(f, now, x)
  }

  /** The form's own test on the text fields, `!value.trim()`, is exactly the blank check. */
  lemma TextChecksUseTrim(f: FormState, now: Instant)
    ensures Name in Validate(f, now) <==> Trim(f.name) == ""
    ensures Family in Validate(f, now) <==> Trim(f.family) == ""
  {
    TrimEmptyIffBlank(f.name);
    TrimEmptyIffBlank(f.family);
  }

  /** `true` when the form has no error. */
  predicate Valid(f: FormState, now: Instant) {
    Validate(f, now) == {}
  }

  /** A form passes exactly when each of its six checks passes. */
  lemma ValidIff(f: FormState, now: Instant)
    ensures Valid(f, now) <==>
      !IsBlank(f.name) && !IsBlank(f.family) && f.quantity >= 0 && f.threshold >= 0 &&
      f.unitPrice >= 0.0 && (f.expiry.Some? ==> f.expiry.value >= now)
  {
    var e := Validate(f, now);
    if e != {} {
      var x :| x in e;
      assert x in AllFields && Fails(f, now, x);
    }
  }

  /**
   * The product data built on submit: name and family trimmed, a barcode
   * that trims to nothing dropped, the "none" supplier dropped, and the
   * price always present.
   */
  function Normalize(f: FormState): (d: ProductData)
    ensures d.name == Trim(f.name) && d.family == Trim(f.family)
    ensures Trim(d.name) == d.name && Trim(d.family) == d.family
    ensures d.barcode.Some? ==> d.barcode.value == Trim(f.barcode)
    ensures d.barcode.Some? ==> d.barcode.value != "" && Trim(d.barcode.value) == d.barcode.value
    ensures d.barcode.None? <==> IsBlank(f.barcode)
    ensures d.supplierId.None? <==> f.supplierId == NoSupplier
    ensures d.supplierId.Some? ==> d.supplierId.value == f.supplierId
    ensures d.quantity == f.quantity && d.alertThreshold == f.threshold && d.expiry == f.expiry
    ensures d.unitPrice == Some(f.unitPrice)
  {
    TrimIdempotent(f.name);
    TrimIdempotent(f.family);
    TrimIdempotent(f.barcode);
    TrimEmptyIffBlank(f.barcode);
    var code := Trim(f.barcode);
    ProductData(
      Trim(f.name),
      Trim(f.family),
      if code == "" then None else Some(code),
      f.quantity,
      f.threshold,
      f.expiry,
      if f.supplierId == NoSupplier then None else Some(f.supplierId),
      Some(f.unitPrice))
  }

  /** The state the form is in after a submit attempt. */
  datatype SubmitOutcome = SubmitOutcome(
    form: FormState,
    errors: set<Field>,
    store: StockManager.Store,
    added: Option<Product>)

  /**
   * `handleSubmit`: an invalid form shows its errors and changes nothing
   * else; a valid one is normalised, added to the ledger (as the ledger
   * is written), and the form is reset with its errors cleared.
   */
  function Submit(f: FormState, st: StockManager.Store, now: Instant, id: Id, movementId: Id, ids: IdSource): (r: SubmitOutcome)
    ensures r.added.Some? <==> Valid(f, now)
    ensures r.errors == Validate(f, now)
    ensures !Valid(f, now) ==> r.form == f && r.store == st
    ensures Valid(f, now) ==>
      r.form == DefaultForm &&
      r.added == Some(Stamp(Normalize(f), id, now)) &&
      r.store == StockManager.AddProduct(st, Normalize(f), id, now, movementId, ids).store
  {
    var errors := Validate(f, now);
    if errors != {} then SubmitOutcome(f, errors, st, None)
    else
      var a := StockManager.AddProduct(st, Normalize(f), id, now, movementId, ids);
      SubmitOutcome(DefaultForm, {}, a.store, Some(a.product))
  }

  /**
   * A product that got through the form is well formed: a non-blank,
   * trimmed name and family, non-negative quantity, threshold and price,
   * no expiry in the past, and no empty barcode.
   */
  lemma SubmittedProductIsSane(f: FormState, st: StockManager.Store, now: Instant, id: Id, movementId: Id, ids: IdSource)
    ensures var r := Submit(f, st, now, id, movementId, ids);
      r.added.Some? ==>
        var p := r.added.value;
        p.id == id && p.created == now &&
        p.name != "" && !IsBlank(p.name) && Trim(p.name) == p.name &&
        p.family != "" && !IsBlank(p.family) && Trim(p.family) == p.family &&
        p.quantity >= 0 && p.alertThreshold >= 0 &&
        p.unitPrice.Some? && p.unitPrice.value >= 0.0 &&
        (p.expiry.Some? ==> p.expiry.value >= now) &&
        (p.barcode.Some? ==> p.barcode.value != "")
  {
    var r := Submit(f, st, now, id, movementId, ids);
    if r.added.Some? {
      TrimEmptyIffBlank(f.name);
      TrimEmptyIffBlank(f.family);
      TrimEmptyIffBlank(Trim(f.name));
      TrimEmptyIffBlank(Trim(f.family));
      var p := r.added.value;
      assert p.name == Trim(f.name) && p.family == Trim(f.family);
    }
  }

  /** The blank form fails on exactly the two required text fields. */
  lemma DefaultFormErrors(now: Instant)
    ensures Validate(DefaultForm, now) == {Name, Family}
  {
    var e := Validate(DefaultForm, now);
    assert IsBlank(DefaultForm.name) && IsBlank(DefaultForm.family);
    assert Name in e && Family in e;
    assert Quantity !in e && Threshold !in e && UnitPrice !in e && Expiry !in e;
    assert forall x :: x in e ==> x == Name || x == Family;
  }

  /**
   * After a successful submit the form is blank again, so submitting it
   * once more is refused for the missing name and family and leaves the
   * ledger as the first submit left it.
   */
  lemma ResubmitAfterSuccessRefused(f: FormState, st: StockManager.Store, now: Instant, id: Id, movementId: Id, ids: IdSource,
                                    later: Instant, id2: Id, movementId2: Id, ids2: IdSource)
    ensures var r := Submit(f, st, now, id, movementId, ids);
      r.added.Some? ==>
        var again := Submit(r.form, r.store, later, id2, movementId2, ids2);
        again.added == None && again.errors == {Name, Family} && again.store == r.store
  {
    var r := Submit(f, st, now, id, movementId, ids);
    if r.added.Some? {
      assert r.form == DefaultForm;
      DefaultFormErrors(later);
      assert !Valid(DefaultForm, later);
    }
  }
}

=== FILE: seqs.dfy ===
/**
 * Sequence helpers shared by the store operations: the `Array.filter` and
 * `Array.findIndex` the ledger relies on, and a counting function.
 */
module Seqs {
  import opened Wrappers

  /**
   * `r` is `s` with some elements deleted: what is left keeps its
   * relative order.
   */
  predicate IsSubsequence<T(==)>(r: seq<T>, s: seq<T>)
    decreases |s|
  {
    |r| == 0 || (|s| > 0 && ((r[0] == s[0] && IsSubsequence(r[1..], s[1..])) || IsSubsequence(r, s[1..])))
  }

  /**
   * `s.filter(keep)`: the elements satisfying `keep`, each as often as in
   * `s`, in their original order.
   */
  function Filter<T(==,!new)>(s: seq<T>, keep: T -> bool): (r: seq<T>)
    ensures |r| <= |s|
    ensures forall x :: x in r <==> x in s && keep(x)
    ensures forall x :: multiset(r)[x] == if keep(x) then multiset(s)[x] else 0
    ensures IsSubsequence(r, s)
  {
    if |s| == 0 then []
    else
      assert s == [s[0]] + s[1..];
      var rest := Filter(s[1..], keep);
      if keep(s[0]) then
        assert ([s[0]] + rest)[1..] == rest;
        [s[0]] + rest
      else
        assert [] + rest == rest;
        rest
  }

  /** Filtering commutes with concatenation: the survivors keep their relative order. */
  lemma {:induction false} FilterAppend<T(!new)>(a: seq<T>, b: seq<T>, keep: T -> bool)
    ensures Filter(a + b, keep) == Filter(a, keep) + Filter(b, keep)
  {
    if |a| == 0 {
      assert a + b == b;
    } else {
      assert (a + b)[1..] == a[1..] + b;
      FilterAppend(a[1..], b, keep);
    }
  }

  /** Filtering a sequence with a known head: the head survives or not, then the tail is filtered. */
  lemma FilterCons<T(!new)>(x: T, s: seq<T>, keep: T -> bool)
    ensures Filter([x] + s, keep) == (if keep(x) then [x] else []) + Filter(s, keep)
  {
    assert ([x] + s)[1..] == s;
  }

  /** A filter that keeps everything is the identity, so nothing is reordered. */
  lemma {:induction false} FilterKeepAll<T(!new)>(s: seq<T>, keep: T -> bool)
    requires forall k :: 0 <= k < |s| ==> keep(s[k])
    ensures Filter(s, keep) == s
  {
    if |s| > 0 {
      FilterKeepAll(s[1..], keep);
    }
  }

  /** `s.findIndex(p)`: the position of the first element satisfying `p`, or None (`findIndex`'s -1). */
  function FirstIndex<T>(s: seq<T>, p: T -> bool): (r: Option<nat>)
    ensures r.None? <==> forall j :: 0 <= j < |s| ==> !p(s[j])
    ensures r.Some? ==> r.value < |s| && p(s[r.value])
    ensures r.Some? ==> forall j :: 0 <= j < r.value ==> !p(s[j])
  {
    if |s| == 0 then None
    else if p(s[0]) then Some(0)
    else
      match FirstIndex(s[1..], p)
      case None => None
      case Some(i) => Some(i + 1)
  }

  /** Two sequences whose elements agree on `p` position by position have the same first match. */
  lemma FirstIndexAgree<T>(a: seq<T>, b: seq<T>, p: T -> bool)
    requires |a| == |b| && forall j :: 0 <= j < |a| ==> p(a[j]) == p(b[j])
    ensures FirstIndex(a, p) == FirstIndex(b, p)
  {
    var x, y := FirstIndex(a, p), FirstIndex(b, p);
    if x.Some? && y.Some? {
      assert !(x.value < y.value) && !(y.value < x.value);
    }
  }

  /** Number of elements satisfying `p`. */
  function Count<T>(s: seq<T>, p: T -> bool): (n: nat)
    ensures n <= |s|
    ensures n == 0 <==> forall j :: 0 <= j < |s| ==> !p(s[j])
  {
    if |s| == 0 then 0
    else (if p(s[0]) then 1 else 0) + Count(s[1..], p)
  }

  lemma {:induction false} CountAppend<T>(a: seq<T>, b: seq<T>, p: T -> bool)
    ensures Count(a + b, p) == Count(a, p) + Count(b, p)
  {
    if |a| == 0 {
      assert a + b == b;
    } else {
      assert (a + b)[1..] == a[1..] + b;
      CountAppend(a[1..], b, p);
    }
  }
}

=== FILE: series.dfy ===
/**
 * The movement chart: one point per calendar day over a trailing window,
 * with that day's entry and exit totals and the current total stock.
 */
module MovementSeries {
  import opened StockTypes
  import StockManager

  /**
   * Total quantity moved in direction `kind` by the movements dated on a
   * day in `[lo, hi)`. This is the reference the chart is checked against.
   */
  function WindowSum(ms: seq<Movement>, kind: MovementKind, lo: int, hi: int): int
    decreases |ms|
  {
    if |ms| == 0 then 0
    else Share(ms[0], kind, lo, hi) + WindowSum(ms[1..], kind, lo, hi)
  }

  /** What one movement contributes to a window total. */
  function Share(m: Movement, kind: MovementKind, lo: int, hi: int): int {
    if m.kind == kind && lo <= DayOf(m.date) < hi then m.quantity else 0
  }

  /** Total quantity moved in direction `kind` on one day. */
  function DaySum(ms: seq<Movement>, kind: MovementKind, day: int): int {
    WindowSum(ms, kind, day, day + 1)
  }

  /** Sum of the stored quantities of all products. */
  function TotalStock(ps: seq<Product>): int
    decreases |ps|
  {
    if |ps| == 0 then 0 else ps[0].quantity + TotalStock(ps[1..])
  }

  /** Replacing one product changes the total by the difference of the two quantities. */
  lemma {:induction false} TotalStockUpdate(ps: seq<Product>, i: nat, p: Product)
    requires i < |ps|
    ensures TotalStock(ps[i := p]) == TotalStock(ps) - ps[i].quantity + p.quantity
  {
    if i == 0 {
      assert ps[i := p][1..] == ps[1..];
    } else {
      assert ps[i := p][1..] == ps[1..][i - 1 := p];
      TotalStockUpdate(ps[1..], i - 1, p);
    }
  }

  /** Shifting an instant by whole days shifts its calendar day by the same count. */
  lemma DayShift(t: Instant, j: int)
    ensures DayOf(t + j * MsPerDay) == DayOf(t) + j
  {
    var d := DayOf(t);
    var e := DayOf(t + j * MsPerDay);
    assert (d + j) * MsPerDay <= t + j * MsPerDay < (d + j + 1) * MsPerDay;
    assert e * MsPerDay <= t + j * MsPerDay < (e + 1) * MsPerDay;
  }

  /** The chart point for one day. */
  function Point(st: StockManager.Store, day: int): MovementData {
    MovementData(day, DaySum(st.movements, Entry, day), DaySum(st.movements, Exit, day),
                 TotalStock(st.products))
  }

  /** Number of points for a window of `days`: the start day through today, none when `days` is negative. */
  function PointCount(days: int): nat {
    if days >= 0 then days + 1 else 0
  }

  /**
   * `getMovementData`: walks from `now - days` days to `now` one day at a
   * time, and for each visited instant reports its calendar day, that
   * day's entry and exit totals, and the stock total of all products.
   */
  function GetMovementData(st: StockManager.Store, now: Instant, days: int): (r: seq<MovementData>)
    ensures |r| == PointCount(days)
    ensures forall k :: 0 <= k < |r| ==> r[k].day == DayOf(now) - days + k
    ensures |r| > 0 ==> r[|r| - 1].day == DayOf(now)
    ensures forall k :: 0 <= k < |r| ==>
      r[k].entries == DaySum(st.movements, Entry, r[k].day) &&
      r[k].exits == DaySum(st.movements, Exit, r[k].day) &&
      r[k].stock == TotalStock(st.products)
  {
    var r := seq(PointCount(days), (k: int) => Point(st, DayOf(now + (k - days) * MsPerDay)));
    assert forall k :: 0 <= k < |r| ==> r[k] == Point(st, DayOf(now) - days + k) by {
      forall k | 0 <= k < |r|
        ensures r[k] == Point(st, DayOf(now) - days + k)
      {
        DayShift(now, k - days);
      }
    }
    r
  }

  /** Sum of the `kind` totals over a list of chart points. */
  function Total(points: seq<MovementData>, kind: MovementKind): int
    decreases |points|
  {
    if |points| == 0 then 0
    else (if kind == Entry then points[0].entries else points[0].exits) + Total(points[1..], kind)
  }

  /** A window total splits at any day inside the window. */
  lemma {:induction false} WindowSplit(ms: seq<Movement>, kind: MovementKind, lo: int, mid: int, hi: int)
    requires lo <= mid <= hi
    ensures WindowSum(ms, kind, lo, hi) == WindowSum(ms, kind, lo, mid) + WindowSum(ms, kind, mid, hi)
    decreases |ms|
  {
    if |ms| > 0 {
      WindowSplit(ms[1..], kind, lo, mid, hi);
    }
  }

  /** An empty window holds nothing. */
  lemma {:induction false} WindowEmpty(ms: seq<Movement>, kind: MovementKind, day: int)
    ensures WindowSum(ms, kind, day, day) == 0
    decreases |ms|
  {
    if |ms| > 0 {
      WindowEmpty(ms[1..], kind, day);
    }
  }

  /** Appending a movement adds its share to every window. */
  lemma {:induction false} WindowSumSnoc(ms: seq<Movement>, m: Movement, kind: MovementKind, lo: int, hi: int)
    ensures WindowSum(ms + [m], kind, lo, hi) == WindowSum(ms, kind, lo, hi) + Share(m, kind, lo, hi)
    decreases |ms|
  {
    if |ms| == 0 {
      assert [m][1..] == [];
    } else {
      assert (ms + [m])[1..] == ms[1..] + [m];
      WindowSumSnoc(ms[1..], m, kind, lo, hi);
    }
  }

  /** Consecutive daily points starting at `lo` add up to the window total over their days. */
  lemma {:induction false} ConsecutiveTotal(st: StockManager.Store, points: seq<MovementData>, kind: MovementKind, lo: int)
    requires forall k :: 0 <= k < |points| ==> points[k].day == lo + k
    requires forall k :: 0 <= k < |points| ==>
      points[k].entries == DaySum(st.movements, Entry, points[k].day) &&
      points[k].exits == DaySum(st.movements, Exit, points[k].day)
    ensures Total(points, kind) == WindowSum(st.movements, kind, lo, lo + |points|)
    decreases |points|
  {
    if |points| > 0 {
      ConsecutiveTotal(st, points[1..], kind, lo + 1);
      WindowSplit(st.movements, kind, lo, lo + 1, lo + |points|);
      assert points[0].day == lo;
    } else {
      WindowEmpty(st.movements, kind, lo);
    }
  }

  /**
   * The chart covers the window without gaps or overlap: its entry (or
   * exit) column adds up to every such movement dated from the start day
   * through today.
   */
  lemma SeriesCoversWindow(st: StockManager.Store, now: Instant, days: int, kind: MovementKind)
    requires days >= 0
    ensures Total(GetMovementData(st, now, days), kind)
         == WindowSum(st.movements, kind, DayOf(now) - days, DayOf(now) + 1)
  {
    ConsecutiveTotal(st, GetMovementData(st, now, days), kind, DayOf(now) - days);
  }

  /**
   * Recording a movement now moves only today's point, by exactly the
   * movement's quantity in its own column; every earlier day is unchanged.
   */
  lemma RecordingMovesToday(st: StockManager.Store, req: MovementRequest, id: Id, now: Instant, ids: IdSource, days: int)
    requires days >= 0
    ensures var a := GetMovementData(st, now, days);
            var b := GetMovementData(StockManager.AddStockMovement(st, req, id, now, ids).store, now, days);
            |a| == |b| &&
            (forall k :: 0 <= k < days ==> b[k].entries == a[k].entries && b[k].exits == a[k].exits) &&
            b[days].entries == a[days].entries + (if req.kind == Entry then req.quantity else 0) &&
            b[days].exits == a[days].exits + (if req.kind == Exit then req.quantity else 0)
  {
    var r := StockManager.AddStockMovement(st, req, id, now, ids);
    var m := r.movement;
    assert r.store.movements == st.movements + [m];
    forall kind, day
      ensures DaySum(r.store.movements, kind, day) == DaySum(st.movements, kind, day) + Share(m, kind, day, day + 1)
    {
      WindowSumSnoc(st.movements, m, kind, day, day + 1);
    }
  }

  /**
   * Recording a movement shifts the stock column of every point by the
   * change it makes to its product's quantity, and leaves it alone when no
   * product has the movement's product id.
   */
  lemma RecordingShiftsStock(st: StockManager.Store, req: MovementRequest, id: Id, now: Instant, ids: IdSource, days: int)
    ensures var a := GetMovementData(st, now, days);
            var b := GetMovementData(StockManager.AddStockMovement(st, req, id, now, ids).store, now, days);
            var i := StockManager.ProductIndex(st.products, req.productId);
            |a| == |b| &&
            forall k :: 0 <= k < |a| ==>
              b[k].stock == a[k].stock +
                (if i.None? then 0
                 else StockManager.ApplyMovement(st.products[i.value].quantity, req.kind, req.quantity)
                      - st.products[i.value].quantity)
  {
    var r := StockManager.AddStockMovement(st, req, id, now, ids);
    var i := StockManager.ProductIndex(st.products, req.productId);
    if i.Some? {
      var q := st.products[i.value];
      var np := q.(quantity := StockManager.ApplyMovement(q.quantity, req.kind, req.quantity), modified := now);
      assert r.store.products == st.products[i.value := np];
      TotalStockUpdate(st.products, i.value, np);
    }
  }
}

=== FILE: stock_alerts.dfy ===
/**
 * The alert rules of `checkStockAlerts`: which alerts a product calls for at
 * a given instant, and the full rebuild of the alert list from the products.
 */
module StockAlerts {
  import opened Wrappers
  import opened Seqs
  import opened StockTypes

  /** Integer ceiling of `a / b`, for positive `b` (JavaScript's `Math.ceil(a / b)`). */
  function CeilDiv(a: int, b: int): (r: int)
    requires b > 0
    ensures (r - 1) * b < a <= r * b
  {
    -((-a) / b)
  }

  /** Whole days from `now` to `expiry`, rounded up: an expiry earlier the same day gives 0. */
  function ExpiryDays(expiry: Instant, now: Instant): int {
    CeilDiv(expiry - now, MsPerDay)
  }

  const NearExpiryDays: int := 7

  /**
   * The alert rules stated on milliseconds, without any rounding: low stock
   * when the quantity is at or below the threshold; expiry passed when the
   * expiry lies a full day or more before now; expiry near when it lies
   * less than a day before now or at most seven days after it.
   */
  predicate Warrants(p: Product, kind: AlertKind, now: Instant) {
    match kind
    case LowStock => p.quantity <= p.alertThreshold
    case ExpiryPassed => p.expiry.Some? && p.expiry.value - now <= -MsPerDay
    case ExpiryNear =>
      p.expiry.Some? && -MsPerDay < p.expiry.value - now <= NearExpiryDays * MsPerDay
  }

  /** The rounded day count sorts expiries into passed, near and neither exactly as `Warrants` does. */
  lemma ExpiryDaysClassify(expiry: Instant, now: Instant)
    ensures ExpiryDays(expiry, now) < 0 <==> expiry - now <= -MsPerDay
    ensures 0 <= ExpiryDays(expiry, now) <= NearExpiryDays
            <==> -MsPerDay < expiry - now <= NearExpiryDays * MsPerDay
  {
  }

  /** A product can never be both near its expiry and past it. */
  lemma NearAndPassedExclusive(p: Product, now: Instant)
    ensures !(Warrants(p, ExpiryNear, now) && Warrants(p, ExpiryPassed, now))
  {
  }

  /** The low-stock alert of a product, if it calls for one (its id is filled in later). */
  function LowStockAlerts(p: Product, now: Instant): (r: seq<Alert>)
    ensures |r| <= 1
    ensures |r| == 1 <==> Warrants(p, LowStock, now)
    ensures |r| == 1 ==> r[0].kind == LowStock && r[0].productId == p.id
  {
    if p.quantity <= p.alertThreshold then
      [Alert("", p.id, LowStock, LowStockText(p.name, p.quantity, p.alertThreshold), now, false)]
    else []
  }

  /** The expiry alert of a product, if it calls for one: passed, or else near. */
  function ExpiryAlerts(p: Product, now: Instant): (r: seq<Alert>)
    ensures |r| <= 1
    ensures |r| == 1 <==> Warrants(p, ExpiryPassed, now) || Warrants(p, ExpiryNear, now)
    ensures |r| == 1 ==> r[0].productId == p.id && r[0].kind != LowStock && Warrants(p, r[0].kind, now)
  {
    if p.expiry.None? then []
    else
      var e := p.expiry.value;
      var days := ExpiryDays(e, now);
      ExpiryDaysClassify(e, now);
      if days < 0 then
        [Alert("", p.id, ExpiryPassed, ExpiryPassedText(p.name, e), now, false)]
      else if days <= NearExpiryDays then
        [Alert("", p.id, ExpiryNear, ExpiryNearText(p.name, e, days), now, false)]
      else []
  }

  /** The alerts one product calls for, low stock first: never two of one kind. */
  function ProductAlerts(p: Product, now: Instant): (r: seq<Alert>)
    ensures |r| <= 2
    ensures forall k :: 0 <= k < |r| ==> r[k].productId == p.id && r[k].created == now && !r[k].read
    ensures forall k :: 0 <= k < |r| ==> Warrants(p, r[k].kind, now)
    ensures |r| == 2 ==> r[0].kind != r[1].kind
  {
    LowStockAlerts(p, now) + ExpiryAlerts(p, now)
  }

  /** Selects the alerts about one product and of one kind. */
  function About(pid: Id, kind: AlertKind): Alert -> bool {
    (a: Alert) => a.productId == pid && a.kind == kind
  }

  /** Selects the products with a given id that warrant a given kind of alert. */
  function Warranting(pid: Id, kind: AlertKind, now: Instant): Product -> bool {
    (p: Product) => p.id == pid && Warrants(p, kind, now)
  }

  /** A product's own alerts hold one alert of each kind it warrants, and nothing about other ids. */
  lemma ProductAlertsCount(p: Product, now: Instant, pid: Id, kind: AlertKind)
    ensures Count(ProductAlerts(p, now), About(pid, kind))
            == if p.id == pid && Warrants(p, kind, now) then 1 else 0
  {
    var low := LowStockAlerts(p, now);
    var exp := ExpiryAlerts(p, now);
    var f := About(pid, kind);
    CountAppend(low, exp, f);
    NearAndPassedExclusive(p, now);
    if |low| == 1 { assert low[1..] == []; }
    if |exp| == 1 { assert exp[1..] == []; }
  }

  /** The alerts for every product, in product order; ids are still blank. */
  function Drafts(ps: seq<Product>, now: Instant): (r: seq<Alert>)
    ensures |r| <= 2 * |ps|
    ensures forall k :: 0 <= k < |r| ==> r[k].created == now && !r[k].read
  {
    if |ps| == 0 then []
    else
      var head := ProductAlerts(ps[0], now);
      var tail := Drafts(ps[1..], now);
      assert forall k :: |head| <= k < |head| + |tail| ==> (head + tail)[k] == tail[k - |head|];
      head + tail
  }

  /**
   * For every product id and kind, the rebuilt list holds exactly as many
   * alerts as there are products with that id warranting that kind. This
   * says both that every alert is justified by a product and that every
   * warranted alert is present.
   */
  lemma {:induction false} DraftsCount(ps: seq<Product>, now: Instant, pid: Id, kind: AlertKind)
    ensures Count(Drafts(ps, now), About(pid, kind)) == Count(ps, Warranting(pid, kind, now))
  {
    if |ps| > 0 {
      var head := ProductAlerts(ps[0], now);
      var tail := Drafts(ps[1..], now);
      CountAppend(head, tail, About(pid, kind));
      ProductAlertsCount(ps[0], now, pid, kind);
      DraftsCount(ps[1..], now, pid, kind);
    }
  }

  /**
   * Numbers the drafts with ids from the source: the k-th alert gets
   * `ids(k)`. Numbering keeps the order and everything but the id, so it
   * keeps, for every product id and kind, how many alerts are about it.
   */
  function Number(d: seq<Alert>, ids: IdSource): (r: seq<Alert>)
    ensures |r| == |d|
    ensures forall k :: 0 <= k < |r| ==> r[k].id == ids(k) && r[k].(id := d[k].id) == d[k]
    ensures forall pid, kind :: Count(r, About(pid, kind)) == Count(d, About(pid, kind))
  {
    var r := seq(|d|, k requires 0 <= k < |d| => d[k].(id := ids(k)));
    RenumberKeepsCounts(r, d);
    r
  }

  /** Alerts that agree on everything but their ids agree on every count by product id and kind. */
  lemma RenumberKeepsCounts(a: seq<Alert>, b: seq<Alert>)
    requires |a| == |b|
    requires forall k :: 0 <= k < |a| ==> a[k].productId == b[k].productId && a[k].kind == b[k].kind
    ensures forall pid, kind :: Count(a, About(pid, kind)) == Count(b, About(pid, kind))
  {
    forall pid, kind ensures Count(a, About(pid, kind)) == Count(b, About(pid, kind)) {
      CountPointwise(a, b, About(pid, kind));
    }
  }

  /** `DraftsCount` for every product id and kind at once. */
  lemma DraftsCountAll(ps: seq<Product>, now: Instant)
    ensures forall pid, kind :: Count(Drafts(ps, now), About(pid, kind)) == Count(ps, Warranting(pid, kind, now))
  {
    forall pid, kind ensures Count(Drafts(ps, now), About(pid, kind)) == Count(ps, Warranting(pid, kind, now)) {
      DraftsCount(ps, now, pid, kind);
    }
  }

  /**
   * `checkStockAlerts`: the complete alert list for the products, rebuilt
   * from scratch. For every product id and kind it holds one alert per
   * product with that id warranting that kind, and nothing else.
   */
  function CheckAlerts(ps: seq<Product>, now: Instant, ids: IdSource): (r: seq<Alert>)
    ensures |r| <= 2 * |ps|
    ensures forall k :: 0 <= k < |r| ==> r[k].id == ids(k) && r[k].created == now && !r[k].read
    ensures forall pid, kind :: Count(r, About(pid, kind)) == Count(ps, Warranting(pid, kind, now))
  {
    DraftsCountAll(ps, now);
    Number(Drafts(ps, now), ids)
  }

  /** Counting by a property that ignores ids gives the same answer before and after numbering. */
  lemma {:induction false} CountPointwise(a: seq<Alert>, b: seq<Alert>, f: Alert -> bool)
    requires |a| == |b|
    requires forall k :: 0 <= k < |a| ==> f(a[k]) == f(b[k])
    ensures Count(a, f) == Count(b, f)
  {
    if |a| > 0 {
      CountPointwise(a[1..], b[1..], f);
    }
  }

  /**
   * The alert list of `checkStockAlerts` holds, for every product id and
   * kind, one alert per product with that id warranting that kind.
   */
  lemma CheckAlertsCount(ps: seq<Product>, now: Instant, ids: IdSource, pid: Id, kind: AlertKind)
    ensures Count(CheckAlerts(ps, now, ids), About(pid, kind)) == Count(ps, Warranting(pid, kind, now))
  {
    DraftsCount(ps, now, pid, kind);
  }

  /** Among products with distinct ids, exactly one product carries a given id. */
  lemma {:induction false} CountUniqueId(ps: seq<Product>, i: nat, f: Product -> bool)
    requires UniqueProductIds(ps)
    requires i < |ps|
    requires forall q :: f(q) ==> q.id == ps[i].id
    ensures Count(ps, f) == if f(ps[i]) then 1 else 0
  {
    assert UniqueProductIds(ps[1..]) by {
      forall a, b | 0 <= a < b < |ps[1..]| ensures ps[1..][a].id != ps[1..][b].id {
        assert ps[1..][a] == ps[a + 1] && ps[1..][b] == ps[b + 1];
      }
    }
    if i == 0 {
      forall k | 0 <= k < |ps[1..]| ensures !f(ps[1..][k]) {
        assert ps[1..][k] == ps[k + 1];
      }
    } else {
      assert ps[1..][i - 1] == ps[i];
      CountUniqueId(ps[1..], i - 1, f);
    }
  }

  /**
   * With distinct product ids, each product gets exactly one alert of each
   * kind it warrants and none of the others.
   */
  lemma AlertCountExact(ps: seq<Product>, now: Instant, ids: IdSource, i: nat, kind: AlertKind)
    requires UniqueProductIds(ps)
    requires i < |ps|
    ensures Count(CheckAlerts(ps, now, ids), About(ps[i].id, kind))
            == if Warrants(ps[i], kind, now) then 1 else 0
  {
    CheckAlertsCount(ps, now, ids, ps[i].id, kind);
    CountUniqueId(ps, i, Warranting(ps[i].id, kind, now));
  }

  /** With distinct product ids, no product carries more than one expiry alert. */
  lemma AtMostOneExpiryAlert(ps: seq<Product>, now: Instant, ids: IdSource, i: nat)
    requires UniqueProductIds(ps)
    requires i < |ps|
    ensures Count(CheckAlerts(ps, now, ids), About(ps[i].id, ExpiryNear))
          + Count(CheckAlerts(ps, now, ids), About(ps[i].id, ExpiryPassed)) <= 1
  {
    AlertCountExact(ps, now, ids, i, ExpiryNear);
    AlertCountExact(ps, now, ids, i, ExpiryPassed);
    NearAndPassedExclusive(ps[i], now);
  }
}

=== FILE: stock_manager.dfy ===
/**
 * The stock ledger: the four stored collections and every operation the
 * tool performs on them, each a pure transition from one store to the
 * next. Clock reads and id generation are parameters: `now` is the single
 * instant of the call, and ids are handed in fresh.
 */
module StockManager {
  import opened Wrappers
  import opened Seqs
  import opened StockTypes
  import StockAlerts

  /** The four persisted collections. */
  datatype Store = Store(
    products: seq<Product>,
    suppliers: seq<Supplier>,
    movements: seq<Movement>,
    alerts: seq<Alert>)

  /** Reason recorded on the movement that books a new product's initial quantity. */
  const InitialStockReason: string := "Stock initial"

  function HasId(id: Id): Product -> bool {
    (p: Product) => p.id == id
  }

  function LacksId(id: Id): Product -> bool {
    (p: Product) => p.id != id
  }

  function ForProduct(id: Id): Movement -> bool {
    (m: Movement) => m.productId == id
  }

  function NotForProduct(id: Id): Movement -> bool {
    (m: Movement) => m.productId != id
  }

  /** Position of the first product with the id. */
  function ProductIndex(ps: seq<Product>, id: Id): (r: Option<nat>)
    ensures r.None? <==> !HasProduct(ps, id)
    ensures r.Some? ==> r.value < |ps| && ps[r.value].id == id
    ensures r.Some? ==> forall j :: 0 <= j < r.value ==> ps[j].id != id
  {
    FirstIndex(ps, HasId(id))
  }

  // ---------------------------------------------------------------- alerts

  /**
   * `checkStockAlerts`: replaces the stored alerts wholesale with the list
   * rebuilt from the products. Prior alerts and their read flags are gone;
   * every new alert is unread and dated `now`.
   */
  function CheckStockAlerts(st: Store, now: Instant, ids: IdSource): (r: Store)
    ensures r.products == st.products && r.suppliers == st.suppliers && r.movements == st.movements
    ensures |r.alerts| <= 2 * |st.products|
    ensures forall k :: 0 <= k < |r.alerts| ==> !r.alerts[k].read && r.alerts[k].created == now
    ensures forall pid, kind ::
      Count(r.alerts, StockAlerts.About(pid, kind)) == Count(st.products, StockAlerts.Warranting(pid, kind, now))
    ensures r.alerts == StockAlerts.CheckAlerts(st.products, now, ids)
  {
    st.(alerts := StockAlerts.CheckAlerts(st.products, now, ids))
  }

  /**
   * The rebuilt alerts depend on nothing but the products and the instant:
   * not on the alerts stored before, nor on which of them were read. So a
   * second rebuild changes nothing.
   */
  lemma CheckStockAlertsForgetsHistory(st1: Store, st2: Store, now: Instant, ids: IdSource)
    requires st1.products == st2.products
    ensures CheckStockAlerts(st1, now, ids).alerts == CheckStockAlerts(st2, now, ids).alerts
    ensures CheckStockAlerts(CheckStockAlerts(st1, now, ids), now, ids) == CheckStockAlerts(st1, now, ids)
  {
  }

  // ------------------------------------------------------------- movements

  /** The effect of one movement on a quantity: an entry adds, an exit subtracts and floors at zero. */
  function ApplyMovement(quantity: int, kind: MovementKind, amount: int): (r: int)
    ensures kind == Entry ==> r == quantity + amount
    ensures kind == Exit ==> r >= 0 && r >= quantity - amount && (r == 0 || r == quantity - amount)
  {
    match kind
    case Entry => quantity + amount
    case Exit => if quantity - amount > 0 then quantity - amount else 0
  }

  datatype MovementRecorded = MovementRecorded(store: Store, movement: Movement)

  /**
   * `addStockMovement`: always appends exactly one movement, then applies
   * it to the first product with the movement's product id, if any, and
   * rebuilds the alerts.
   */
  function AddStockMovement(st: Store, req: MovementRequest, id: Id, now: Instant, ids: IdSource): (r: MovementRecorded)
    ensures r.movement == Movement(id, req.productId, req.kind, req.quantity, req.reason, now, req.user)
    ensures r.store.movements == st.movements + [r.movement]
    ensures r.store.suppliers == st.suppliers
    ensures |r.store.products| == |st.products|
    ensures !HasProduct(st.products, req.productId) ==> r.store.products == st.products
    ensures forall i :: 0 <= i < |st.products| && ProductIndex(st.products, req.productId) != Some(i) ==>
      r.store.products[i] == st.products[i]
    ensures ProductIndex(st.products, req.productId).Some? ==>
      var i := ProductIndex(st.products, req.productId).value;
      r.store.products[i] == st.products[i].(
        quantity := ApplyMovement(st.products[i].quantity, req.kind, req.quantity),
        modified := now)
    ensures r.store.alerts == StockAlerts.CheckAlerts(r.store.products, now, ids)
  {
    var m := Movement(id, req.productId, req.kind, req.quantity, req.reason, now, req.user);
    var products :=
      match ProductIndex(st.products, req.productId)
      case None => st.products
      case Some(i) =>
        var p := st.products[i];
        st.products[i := p.(quantity := ApplyMovement(p.quantity, req.kind, req.quantity), modified := now)];
    var saved := st.(movements := st.movements + [m], products := products);
    MovementRecorded(CheckStockAlerts(saved, now, ids), m)
  }

  /** `getMovementsByProduct`: the product's movements, oldest first. */
  function MovementsByProduct(st: Store, productId: Id): (r: seq<Movement>)
    ensures forall m :: m in r <==> m in st.movements && m.productId == productId
    ensures forall m :: multiset(r)[m] == if m.productId == productId then multiset(st.movements)[m] else 0
    ensures IsSubsequence(r, st.movements)
  {
    Filter(st.movements, ForProduct(productId))
  }

  // -------------------------------------------------------------- products

  datatype ProductAdded = ProductAdded(store: Store, product: Product)

  /**
   * `addProduct`, as the code is written. The product is saved with its
   * quantity Q; when Q > 0 the initial-stock entry is then recorded through
   * `addStockMovement`, which adds Q a second time to the first product with
   * that id. With a fresh id the stored product therefore holds 2Q while the
   * returned record and the movement log say Q.
   */
  function AddProduct(st: Store, data: ProductData, id: Id, now: Instant, movementId: Id, ids: IdSource): (r: ProductAdded)
    ensures r.product == Stamp(data, id, now)
    ensures r.store.suppliers == st.suppliers
    ensures |r.store.products| == |st.products| + 1
    ensures data.quantity > 0 ==>
      r.store.movements == st.movements + [Movement(movementId, id, Entry, data.quantity, InitialStockReason, now, None)]
    ensures data.quantity <= 0 ==> r.store.movements == st.movements
    ensures !HasProduct(st.products, id) ==>
      r.store.products == st.products + [r.product.(quantity := if data.quantity > 0 then 2 * data.quantity else data.quantity)]
    ensures r.store.alerts == StockAlerts.CheckAlerts(r.store.products, now, ids)
  {
    var p := Stamp(data, id, now);
    var saved := st.(products := st.products + [p]);
    assert saved.products[|st.products|] == p;
    assert !HasProduct(st.products, id) ==> ProductIndex(saved.products, id) == Some(|st.products|);
    var booked :=
      if p.quantity > 0 then
        AddStockMovement(saved, MovementRequest(id, Entry, p.quantity, InitialStockReason, None), movementId, now, ids).store
      else saved;
    ProductAdded(CheckStockAlerts(booked, now, ids), p)
  }

  /**
   * `addProduct` as evidently intended: the initial-stock entry is logged
   * but not applied a second time, so the stored quantity is the one
   * returned and the one the movement log implies.
   */
  function AddProductLedgerSafe(st: Store, data: ProductData, id: Id, now: Instant, movementId: Id, ids: IdSource): (r: ProductAdded)
    ensures r.product == Stamp(data, id, now)
    ensures r.store.suppliers == st.suppliers
    ensures r.store.products == st.products + [r.product]
    ensures data.quantity > 0 ==>
      r.store.movements == st.movements + [Movement(movementId, id, Entry, data.quantity, InitialStockReason, now, None)]
    ensures data.quantity <= 0 ==> r.store.movements == st.movements
    ensures r.store.alerts == StockAlerts.CheckAlerts(r.store.products, now, ids)
  {
    var p := Stamp(data, id, now);
    var movements :=
      if p.quantity > 0 then st.movements + [Movement(movementId, id, Entry, p.quantity, InitialStockReason, now, None)]
      else st.movements;
    ProductAdded(CheckStockAlerts(st.(products := st.products + [p], movements := movements), now, ids), p)
  }

  /**
   * `updateProduct`: replaces the first product with the same id, stamps
   * its modification time and rebuilds the alerts. An unknown id changes
   * nothing at all, not even the alerts.
   */
  function UpdateProduct(st: Store, updated: Product, now: Instant, ids: IdSource): (r: Store)
    ensures !HasProduct(st.products, updated.id) ==> r == st
    ensures HasProduct(st.products, updated.id) ==>
      var i := ProductIndex(st.products, updated.id).value;
      && |r.products| == |st.products|
      && r.products[i] == updated.(modified := now)
      && (forall j :: 0 <= j < |st.products| && j != i ==> r.products[j] == st.products[j])
      && r.suppliers == st.suppliers && r.movements == st.movements
      && r.alerts == StockAlerts.CheckAlerts(r.products, now, ids)
  {
    match ProductIndex(st.products, updated.id)
    case None => st
    case Some(i) =>
      CheckStockAlerts(st.(products := st.products[i := updated.(modified := now)]), now, ids)
  }

  /**
   * `deleteProduct`: drops every product with the id and every movement
   * that refers to it; all else keeps its order and multiplicity. Alerts are
   * left as they are, stale ones included.
   */
  function DeleteProduct(st: Store, id: Id): (r: Store)
    ensures forall p :: multiset(r.products)[p] == if p.id != id then multiset(st.products)[p] else 0
    ensures forall m :: multiset(r.movements)[m] == if m.productId != id then multiset(st.movements)[m] else 0
    ensures !HasProduct(r.products, id)
    ensures forall m :: m in r.movements ==> m.productId != id
    ensures IsSubsequence(r.products, st.products) && IsSubsequence(r.movements, st.movements)
    ensures r.suppliers == st.suppliers && r.alerts == st.alerts
  {
    var r := st.(products := Filter(st.products, LacksId(id)),
                 movements := Filter(st.movements, NotForProduct(id)));
    assert forall k :: 0 <= k < |r.products| ==> r.products[k] in r.products;
    r
  }

  // ------------------------------------------------------------- suppliers

  datatype SupplierAdded = SupplierAdded(store: Store, supplier: Supplier)

  function SupplierIndex(ss: seq<Supplier>, id: Id): (r: Option<nat>)
    ensures r.None? <==> forall j :: 0 <= j < |ss| ==> ss[j].id != id
    ensures r.Some? ==> r.value < |ss| && ss[r.value].id == id
    ensures r.Some? ==> forall j :: 0 <= j < r.value ==> ss[j].id != id
  {
    FirstIndex(ss, (s: Supplier) => s.id == id)
  }

  /** `addSupplier`: appends the supplier with its id and creation time; nothing else changes. */
  function AddSupplier(st: Store, data: SupplierData, id: Id, now: Instant): (r: SupplierAdded)
    ensures r.supplier.id == id && r.supplier.created == now
    ensures r.supplier.name == data.name && r.supplier.contact == data.contact
    ensures r.supplier.phone == data.phone && r.supplier.email == data.email && r.supplier.address == data.address
    ensures r.store == st.(suppliers := st.suppliers + [r.supplier])
  {
    var s := Supplier(id, data.name, data.contact, data.phone, data.email, data.address, now);
    SupplierAdded(st.(suppliers := st.suppliers + [s]), s)
  }

  /** `updateSupplier`: replaces the first supplier with the same id as given, with no timestamp and no alert rebuild. */
  function UpdateSupplier(st: Store, updated: Supplier): (r: Store)
    ensures SupplierIndex(st.suppliers, updated.id).None? ==> r == st
    ensures SupplierIndex(st.suppliers, updated.id).Some? ==>
      var i := SupplierIndex(st.suppliers, updated.id).value;
      && |r.suppliers| == |st.suppliers|
      && r.suppliers[i] == updated
      && (forall j :: 0 <= j < |st.suppliers| && j != i ==> r.suppliers[j] == st.suppliers[j])
      && r.products == st.products && r.movements == st.movements && r.alerts == st.alerts
  {
    match SupplierIndex(st.suppliers, updated.id)
    case None => st
    case Some(i) => st.(suppliers := st.suppliers[i := updated])
  }

  /** `deleteSupplier`: drops every supplier with the id. Products that name it keep the dangling reference. */
  function DeleteSupplier(st: Store, id: Id): (r: Store)
    ensures forall s :: multiset(r.suppliers)[s] == if s.id != id then multiset(st.suppliers)[s] else 0
    ensures IsSubsequence(r.suppliers, st.suppliers)
    ensures r.products == st.products && r.movements == st.movements && r.alerts == st.alerts
  {
    st.(suppliers := Filter(st.suppliers, (s: Supplier) => s.id != id))
  }

  /** Deleting a freshly added supplier gives back the store as it was. */
  lemma DeleteSupplierUndoesAdd(st: Store, data: SupplierData, id: Id, now: Instant)
    requires forall j :: 0 <= j < |st.suppliers| ==> st.suppliers[j].id != id
    ensures DeleteSupplier(AddSupplier(st, data, id, now).store, id) == st
  {
    var keep := (s: Supplier) => s.id != id;
    var added := AddSupplier(st, data, id, now).store.suppliers;
    FilterAppend(st.suppliers, [AddSupplier(st, data, id, now).supplier], keep);
    FilterKeepAll(st.suppliers, keep);
  }

  // ---------------------------------------------------------------- alerts

  /** `markAlertAsRead`: sets the read flag of the first alert with the id; an unknown id changes nothing. */
  function MarkAlertAsRead(st: Store, alertId: Id): (r: Store)
    ensures r.products == st.products && r.suppliers == st.suppliers && r.movements == st.movements
    ensures |r.alerts| == |st.alerts|
    ensures (forall j :: 0 <= j < |st.alerts| ==> st.alerts[j].id != alertId) ==> r == st
    ensures forall j :: 0 <= j < |st.alerts| ==>
      r.alerts[j] == if FirstIndex(st.alerts, (a: Alert) => a.id == alertId) == Some(j)
                     then st.alerts[j].(read := true) else st.alerts[j]
  {
    match FirstIndex(st.alerts, (a: Alert) => a.id == alertId)
    case None => st
    case Some(i) => st.(alerts := st.alerts[i := st.alerts[i].(read := true)])
  }

  /**
   * Marking the same alert twice is the same as once, and the flag does not
   * survive the next rebuild: `checkStockAlerts` gives the same alerts
   * whether or not an alert was marked read before it.
   */
  lemma MarkAlertAsReadIdempotent(st: Store, alertId: Id, now: Instant, ids: IdSource)
    ensures MarkAlertAsRead(MarkAlertAsRead(st, alertId), alertId) == MarkAlertAsRead(st, alertId)
    ensures CheckStockAlerts(MarkAlertAsRead(st, alertId), now, ids) == CheckStockAlerts(st, now, ids)
  {
    var once := MarkAlertAsRead(st, alertId);
    var p := (a: Alert) => a.id == alertId;
    FirstIndexAgree(st.alerts, once.alerts, p);
  }

  /** `deleteAlert`: drops every alert with the id, keeping the others. */
  function DeleteAlert(st: Store, alertId: Id): (r: Store)
    ensures forall a :: multiset(r.alerts)[a] == if a.id != alertId then multiset(st.alerts)[a] else 0
    ensures IsSubsequence(r.alerts, st.alerts)
    ensures forall a :: a in r.alerts ==> a.id != alertId
    ensures r.products == st.products && r.suppliers == st.suppliers && r.movements == st.movements
  {
    st.(alerts := Filter(st.alerts, KeepAlert(alertId)))
  }

  function KeepAlert(alertId: Id): Alert -> bool {
    (a: Alert) => a.id != alertId
  }

  /**
   * Deleting an alert id nobody carries changes nothing, so deleting the
   * same id twice is the same as once.
   */
  lemma DeleteAlertIdempotent(st: Store, alertId: Id)
    ensures (forall j :: 0 <= j < |st.alerts| ==> st.alerts[j].id != alertId) ==> DeleteAlert(st, alertId) == st
    ensures DeleteAlert(DeleteAlert(st, alertId), alertId) == DeleteAlert(st, alertId)
  {
    if forall j :: 0 <= j < |st.alerts| ==> st.alerts[j].id != alertId {
      FilterKeepAll(st.alerts, KeepAlert(alertId));
    }
    var once := DeleteAlert(st, alertId).alerts;
    assert forall k :: 0 <= k < |once| ==> once[k] in once;
    FilterKeepAll(once, KeepAlert(alertId));
  }

  // ---------------------------------------------------------------- import

  /** The fields of an import document; a field that is absent or null is None. */
  datatype Payload = Payload(
    products: Option<seq<Product>>,
    suppliers: Option<seq<Supplier>>,
    movements: Option<seq<Movement>>,
    alerts: Option<seq<Alert>>)

  /**
   * The outcome of parsing the import text: unparseable; the JSON literal
   * `null`, which parses but whose fields cannot be read; or a document.
   */
  datatype ParsedJson = Malformed | JsonNull | Document(payload: Payload)

  datatype Imported = Imported(store: Store, ok: bool)

  /**
   * `importData`: on a readable document, overwrites exactly the collections
   * it carries (an empty list counts as carried) and reports success;
   * otherwise reports failure and changes nothing.
   */
  function ImportData(st: Store, input: ParsedJson): (r: Imported)
    ensures r.ok <==> input.Document?
    ensures !r.ok ==> r.store == st
    ensures input.Document? ==>
      var d := input.payload;
      && r.store.products == d.products.GetOr(st.products)
      && r.store.suppliers == d.suppliers.GetOr(st.suppliers)
      && r.store.movements == d.movements.GetOr(st.movements)
      && r.store.alerts == d.alerts.GetOr(st.alerts)
  {
    match input
    case Document(d) =>
      var st1 := if d.products.Some? then st.(products := d.products.value) else st;
      var st2 := if d.suppliers.Some? then st1.(suppliers := d.suppliers.value) else st1;
      var st3 := if d.movements.Some? then st2.(movements := d.movements.value) else st2;
      var st4 := if d.alerts.Some? then st3.(alerts := d.alerts.value) else st3;
      Imported(st4, true)
    case _ => Imported(st, false)
  }

  /** The four collections of a store as a complete import document. */
  function FullPayload(st: Store): Payload {
    Payload(Some(st.products), Some(st.suppliers), Some(st.movements), Some(st.alerts))
  }

  /**
   * A document carrying all four collections reproduces its store whatever
   * was there before, and importing the same document twice is the same as
   * once.
   */
  lemma ImportRoundTrip(src: Store, target: Store, d: Payload)
    ensures ImportData(target, Document(FullPayload(src))) == Imported(src, true)
    ensures ImportData(ImportData(target, Document(d)).store, Document(d)) == ImportData(target, Document(d))
  {
  }
}

=== FILE: stock_types.dfy ===
/**
 * The records of the stock tool: products, suppliers, stock movements,
 * alerts and chart points. Instants are integer milliseconds since the
 * epoch; ids are opaque strings handed in by the caller.
 */
module StockTypes {
  import opened Wrappers

  type Id = string

  /** Milliseconds since the epoch (a JavaScript `Date`). */
  type Instant = int

  /** A source of fresh ids: the k-th id requested is `ids(k)`. */
  type IdSource = nat -> Id

  const MsPerDay: int := 86_400_000

  /** The UTC calendar day of an instant, as a day number (the `YYYY-MM-DD` of `toISOString`). */
  function DayOf(t: Instant): (d: int)
    ensures d * MsPerDay <= t < (d + 1) * MsPerDay
  {
    t / MsPerDay
  }

  /**
   * A product as the form submits it: everything except the id and the two
   * timestamps. Barcode, expiry, supplier and unit price are optional.
   */
  datatype ProductData = ProductData(
    name: string,
    family: string,
    barcode: Option<string>,
    quantity: int,
    alertThreshold: int,
    expiry: Option<Instant>,
    supplierId: Option<Id>,
    unitPrice: Option<real>)

  /** A stored product. */
  datatype Product = Product(
    id: Id,
    name: string,
    family: string,
    barcode: Option<string>,
    quantity: int,
    alertThreshold: int,
    expiry: Option<Instant>,
    supplierId: Option<Id>,
    unitPrice: Option<real>,
    created: Instant,
    modified: Instant)

  /** Adds the three fields that the form data lacks. */
  function Stamp(d: ProductData, id: Id, now: Instant): (p: Product)
    ensures p.id == id && p.created == now && p.modified == now
  {
    Product(id, d.name, d.family, d.barcode, d.quantity, d.alertThreshold,
            d.expiry, d.supplierId, d.unitPrice, now, now)
  }

  /** Forgets the id and the two timestamps. */
  function Strip(p: Product): ProductData {
    ProductData(p.name, p.family, p.barcode, p.quantity, p.alertThreshold,
                p.expiry, p.supplierId, p.unitPrice)
  }

  /** Stamping adds exactly the id and timestamps: stripping them gives the data back, and nothing else differs. */
  lemma StampStrip(d: ProductData, p: Product, id: Id, now: Instant)
    ensures Strip(Stamp(d, id, now)) == d
    ensures p.created == p.modified ==> Stamp(Strip(p), p.id, p.created) == p
  {
  }

  /** No two products share an id (what the injected id source guarantees). */
  predicate UniqueProductIds(ps: seq<Product>) {
    forall i, j :: 0 <= i < j < |ps| ==> ps[i].id != ps[j].id
  }

  /** Some product carries the id. */
  predicate HasProduct(ps: seq<Product>, id: Id) {
    exists i :: 0 <= i < |ps| && ps[i].id == id
  }

  datatype SupplierData = SupplierData(
    name: string,
    contact: string,
    phone: Option<string>,
    email: Option<string>,
    address: Option<string>)

  datatype Supplier = Supplier(
    id: Id,
    name: string,
    contact: string,
    phone: Option<string>,
    email: Option<string>,
    address: Option<string>,
    created: Instant)

  /** Direction of a stock movement: exactly one of entry (`entree`) or exit (`sortie`). */
  datatype MovementKind = Entry | Exit

  /** A movement before it is recorded: no id and no date yet. */
  datatype MovementRequest = MovementRequest(
    productId: Id,
    kind: MovementKind,
    quantity: int,
    reason: string,
    user: Option<string>)

  datatype Movement = Movement(
    id: Id,
    productId: Id,
    kind: MovementKind,
    quantity: int,
    reason: string,
    date: Instant,
    user: Option<string>)

  /** Kind of an alert: exactly one of low stock, expiry near or expiry passed. */
  datatype AlertKind = LowStock | ExpiryNear | ExpiryPassed

  /**
   * The content of an alert's message: the values it interpolates, before
   * being rendered as French text.
   */
  datatype AlertMessage =
    | LowStockText(name: string, quantity: int, threshold: int)
    | ExpiryPassedText(name: string, expiry: Instant)
    | ExpiryNearText(name: string, expiry: Instant, days: int)

  datatype Alert = Alert(
    id: Id,
    productId: Id,
    kind: AlertKind,
    message: AlertMessage,
    created: Instant,
    read: bool)

  /** One point of the movement chart: a day and three totals. */
  datatype MovementData = MovementData(day: int, entries: int, exits: int, stock: int)
}

=== FILE: text.dfy ===
/**
 * ECMAScript `String.prototype.trim` and the "blank after trimming" test the
 * form validator and the barcode scanner both rely on.
 */
module Text {

  /** The ECMAScript WhiteSpace and LineTerminator code points, which `trim` strips. */
  predicate IsWhitespace(c: char) {
    || c == '\t' || c == '\n' || c == '\U{B}' || c == '\U{C}' || c == '\r' || c == ' '
    || c == '\U{A0}' || c == '\U{1680}' || ('\U{2000}' <= c <= '\U{200A}')
    || c == '\U{2028}' || c == '\U{2029}' || c == '\U{202F}' || c == '\U{205F}'
    || c == '\U{3000}' || c == '\U{FEFF}'
  }

  /** Every character is whitespace (the empty string included). */
  predicate IsBlank(s: string) {
    forall k :: 0 <= k < |s| ==> IsWhitespace(s[k])
  }

  /** Length of the leading whitespace run. */
  function LeadingSpace(s: string): (n: nat)
    ensures n <= |s|
    ensures IsBlank(s[..n])
    ensures n < |s| ==> !IsWhitespace(s[n])
  {
    if |s| == 0 || !IsWhitespace(s[0]) then 0
    else
      var t := s[1..];
      var m := LeadingSpace(t);
      assert s[..m + 1] == [s[0]] + t[..m];
      BlankConcat([s[0]], t[..m]);
      assert m + 1 < |s| ==> s[m + 1] == t[m];
      m + 1
  }

  /** Length of the trailing whitespace run. */
  function TrailingSpace(s: string): (n: nat)
    ensures n <= |s|
    ensures IsBlank(s[|s| - n..])
    ensures n < |s| ==> !IsWhitespace(s[|s| - n - 1])
  {
    if |s| == 0 || !IsWhitespace(s[|s| - 1]) then 0
    else
      var t := s[..|s| - 1];
      var m := TrailingSpace(t);
      assert s[|s| - (m + 1)..] == t[|t| - m..] + [s[|s| - 1]];
      BlankConcat(t[|t| - m..], [s[|s| - 1]]);
      assert m + 1 < |s| ==> s[|s| - (m + 1) - 1] == t[|t| - m - 1];
      m + 1
  }

  /**
   * `s.trim()`: the slice of `s` left after removing the whitespace at both
   * ends. The result is a contiguous piece of `s`, only whitespace was cut
   * off, and it neither starts nor ends with whitespace.
   */
  function Trim(s: string): (r: string)
    ensures |r| <= |s|
    ensures exists i, j :: 0 <= i <= j <= |s| && r == s[i..j] && IsBlank(s[..i]) && IsBlank(s[j..])
    ensures |r| > 0 ==> !IsWhitespace(r[0]) && !IsWhitespace(r[|r| - 1])
  {
    var i := LeadingSpace(s);
    var front := s[i..];
    var t := TrailingSpace(front);
    var j := |s| - t;
    assert front[|front| - t..] == s[j..];
    assert i < j ==> s[i..j][0] == s[i] && s[i..j][j - i - 1] == front[|front| - t - 1];
    assert IsBlank(s[..i]) && IsBlank(s[j..]);
    s[i..j]
  }

  /** Where `Trim` cuts: after the leading and before the trailing whitespace. */
  lemma TrimSlice(s: string) returns (i: nat, j: nat)
    ensures i <= j <= |s| && Trim(s) == s[i..j] && IsBlank(s[..i]) && IsBlank(s[j..])
    ensures i < j ==> !IsWhitespace(s[i])
  {
    i := LeadingSpace(s);
    j := |s| - TrailingSpace(s[i..]);
    assert s[i..][|s[i..]| - TrailingSpace(s[i..])..] == s[j..];
  }

  /** A string trims to the empty string exactly when it is blank. */
  lemma TrimEmptyIffBlank(s: string)
    ensures Trim(s) == "" <==> IsBlank(s)
  {
    var i, j := TrimSlice(s);
    if i == j {
      assert s == s[..i] + s[j..];
      BlankConcat(s[..i], s[j..]);
    } else {
      assert |Trim(s)| == j - i > 0;
      assert !IsWhitespace(s[i]);
    }
  }

  /** A non-empty string with no whitespace at either end is left as it is. */
  lemma TrimUntouched(s: string)
    requires |s| > 0 && !IsWhitespace(s[0]) && !IsWhitespace(s[|s| - 1])
    ensures Trim(s) == s
  {
    assert LeadingSpace(s) == 0;
    assert s[0..] == s;
    assert TrailingSpace(s) == 0;
    assert s[0..|s|] == s;
  }

  /** Two blank strings make a blank string. */
  lemma BlankConcat(a: string, b: string)
    requires IsBlank(a) && IsBlank(b)
    ensures IsBlank(a + b)
  {
    forall k | 0 <= k < |a + b| ensures IsWhitespace((a + b)[k]) {
      if k >= |a| {
        assert (a + b)[k] == b[k - |a|];
      }
    }
  }

  /** Trimming twice trims nothing more. */
  lemma TrimIdempotent(s: string)
    ensures Trim(Trim(s)) == Trim(s)
  {
    var r := Trim(s);
    var t := Trim(r);
    var i, j :| 0 <= i <= j <= |r| && t == r[i..j] && IsBlank(r[..i]) && IsBlank(r[j..]);
    if |r| > 0 {
      assert r[0..|r|] == r;
    }
  }
}

=== FILE: wrappers.dfy ===
/** An optional value: the model's stand-in for TypeScript's `T | undefined`. */
module Wrappers {

  datatype Option<+T> = None | Some(value: T) {

    /** The wrapped value, or `default` when absent. */
    function GetOr(default: T): T {
      match this
      case Some(v) => v
      case None => default
    }
  }
}
